=== FILE: README.md ===
# typesense_exporter — a Dafny model of the scrape core

This project models the per-scrape logic of the Typesense Prometheus
exporter and proves properties of it. The exporter has three parts:

- **API stats collector** (`APIStats`). It reads `/stats.json` and exposes
  ten scalar gauges (latencies in seconds, request rates, pending write
  batches). It also exposes two vector gauges, `latency_seconds` and
  `requests_per_second`. These give one sample per `"METHOD /endpoint"` key
  of the upstream mappings, labelled cluster, method and endpoint.
- **Cluster metrics collector** (`ClusterMetrics`). It reads
  `/metrics.json`, whose numbers arrive as quoted strings, and exposes
  seven Typesense memory gauges.
- **Wrapper** (`TypesenseCollector`). It runs registered collectors and
  adds a duration sample and a success sample for each one.

Each collector keeps three health metrics across scrapes: the `up` gauge,
and the `total_scrapes` and `json_parse_failures` counters. Every scrape
ends by sending these three.

Every behaviour is a pure function. A scrape takes the prior counters and
the outcome of the HTTP fetch, and returns the new counters and the
sequence of samples sent.

A sample is a name, label values and a value. Values are Dafny `real`.
Go's map iteration order is unspecified, so it is an input: a sequence
listing each key of the map once (`Exposition.IsEnumeration`). Lemmas show
that the order changes only the order of the samples, never their
multiset.

Modules, one per file:

| file | module | models |
|---|---|---|
| wrappers.dfy | `Wrappers` | `Option` and `Result` |
| exposition.dfy | `Exposition` | `BuildFQName`, samples, descriptors, map iteration orders, mapping over a sequence |
| go_strings.dfy | `GoStrings` | `strings.Split` and `strings.Join` for a one-character separator |
| scrape.dfy | `Scrape` | the fetch outcome and its error kinds, the health counters, the three health samples |
| api_stats.dfy | `ApiStats` | collector/api_stats.go |
| cluster_metrics.dfy | `ClusterMetrics` | collector/cluster_metrics.go |
| aggregator.dfy | `Aggregator` | collector/collector.go |

The fetch is one value of type `Scrape.Fetch<J>`. It is either no response
at all, or a status plus a body. The body is either a read failure or a
document of the collector's shape `J`. For API stats the document is
malformed or decoded. For cluster metrics it is malformed or a map from key
to quoted value. In the quoted value, each member records what its text
parses to as a float64 and as an int.

## Model

| member | source | states |
|---|---|---|
| `Scrape.Receive` | collector/api_stats.go:308-326 | A transport error, a status other than exactly 200 and an unreadable body are the three failures before decoding. Only the body failure is a parse failure. On success the document is passed on unchanged. |
| `Scrape.Next` | collector/api_stats.go:262-278 | One scrape always adds 1 to `total_scrapes`. `json_parse_failures` grows by 1 exactly on a read or decode failure. `up` is 1 on success and 0 on failure, whatever it was before. The invariant "up is 0 or 1, and failures ≤ scrapes" is preserved. |
| `Scrape.RunCounts` | collector/api_stats.go:264-269 | After N scrapes, `total_scrapes` has grown by exactly N and `json_parse_failures` by the number of parse failures among them. A valid counter state stays valid. |
| `Scrape.FromInitial` | collector/cluster_metrics.go:173-189 | From a fresh collector, N scrapes give `total_scrapes` = N and `json_parse_failures` ≤ N. |
| `Scrape.Health` | collector/api_stats.go:265-269 | The deferred health samples are `up`, `total_scrapes` and `json_parse_failures`, in that order, unlabelled, carrying the counter values. |
| `GoStrings.Split` | collector/api_stats.go:68 | `strings.Split` returns at least one piece. No piece contains the separator. Joining the pieces with the separator gives the input back. |
| `GoStrings.SplitJoin` | collector/api_stats.go:68 | Splitting a join of separator-free pieces gives the pieces back. |
| `ApiStats.SplitStatKey` | collector/api_stats.go:67-70 | It needs a space in the key, since `split[1]` panics otherwise. The method is the space-free text before the first space. The endpoint is the space-free text after it, up to the next space or the end. |
| `ApiStats.SecondFieldExists` | collector/api_stats.go:67-70 | `split[1]` exists exactly when the key holds a space. |
| `ApiStats.SplitStatKeyRoundTrip` | collector/api_stats.go:67-70 | For a space-free method and endpoint, `splitStatKey(m + " " + e) == (m, e)`. |
| `ApiStats.SplitStatKeyDropsRest` | collector/api_stats.go:67-70 | With two or more spaces, the text after the second space is dropped, not kept in the endpoint. |
| `ApiStats.MetricsFollowSchema` | collector/api_stats.go:93-204 | The scalar table has ten rows. Each scalar field of the response is read by exactly one row. Each row is named after its JSON key, with `_ms` renamed to `_seconds`. Millisecond fields are divided by 1000 and the others pass through unchanged. |
| `ApiStats.StatsFollowSchema` | collector/api_stats.go:205-245 | The vector table reads the latency mapping (in seconds, raw / 1000) and then the rate mapping (unchanged), under the same naming rule. |
| `ApiStats.EntrySample` | collector/api_stats.go:214-243 | The sample for one mapping entry is named after its vector row. Its labels are the base URL, the method and the endpoint. The method is the space-free text before the key's first space. The endpoint is the space-free text after it, up to the next space or the end. Its value is converted by the row's rule. |
| `ApiStats.StatSamples` | collector/api_stats.go:214-243 | A vector row sends one sample per visited key, in visiting order. |
| `ApiStats.StatSamplesCoverMap` | collector/api_stats.go:214-243 | A vector row sends exactly one sample per map entry, whatever the iteration order. Every entry's sample is present and every sample comes from an entry. Two iteration orders give the same multiset. |
| `ApiStats.ScalarSamples` | collector/api_stats.go:282-289 | On success there is one sample per scalar row, labelled with the base URL. The name and value are derived from the row's JSON key by the unit rule. |
| `ApiStats.FieldSamples` | collector/api_stats.go:282-300 | The field samples are the ten scalars, then one sample per latency entry, then one per rate entry. |
| `ApiStats.FetchAndDecode` | collector/api_stats.go:303-333 | It succeeds exactly on a 200 with a readable, decodable body, returning the decoded response. A failure is a parse failure exactly when the 200 body could not be read or decoded. |
| `ApiStats.Collect` | collector/api_stats.go:262-301 | Every scrape adds 1 to `total_scrapes`. `json_parse_failures` grows only on a parse failure. `up` is 1 exactly on success. A failure sends only the three health samples. A success sends the field samples and then the health samples, last. |
| `ApiStats.NonOkStatusFails` | collector/api_stats.go:318-320 | Any status other than 200 is a failure: up = 0, `json_parse_failures` is unchanged, and only the health samples are sent. |
| `ApiStats.CollectSendsEveryEntry` | collector/api_stats.go:291-300 | A successful scrape sends 13 + len(latency_ms) + len(requests_per_second) samples, including every entry's sample. Go's map order changes only the order of the samples. |
| `ApiStats.Describe` | collector/api_stats.go:251-259 | As written, `Describe` sends the ten scalar descriptors, each with the label "cluster", and then the three health descriptors. |
| `ApiStats.StatNamesUndescribed` | collector/api_stats.go:251-259 | No descriptor sent by `Describe` carries the name of a vector row. |
| `ApiStats.DescribeMissesLatencySamples` | collector/api_stats.go:251-259 | Every successful scrape whose latency mapping is not empty sends a `typesense_api_stats_latency_seconds` sample, right after the ten scalars, that `Describe` never announced. |
| `ApiStats.DescribeComplete` | collector/api_stats.go:205-259 | The corrected `Describe` adds the two vector descriptors, each labelled cluster, method and endpoint. |
| `ApiStats.CollectIsDescribed` | collector/api_stats.go:262-301 | With the corrected `Describe`, every sample any scrape sends has a descriptor with its name and label count. |
| `ClusterMetrics.Decode` | collector/cluster_metrics.go:26-45 | Members are keyed by the struct tag Go matched them to, with null members absent (see Left out). `json.Unmarshal` with `,string` fails as a whole exactly when some present field's text does not parse as its Go type (int or float64). Otherwise each field holds its member's value, or 0 when the key is absent. Keys that match no tag are ignored. |
| `ClusterMetrics.MetricsFollowSchema` | collector/cluster_metrics.go:79-157 | The table has seven rows, one for each Typesense memory field and none for the host fields. Each row is named after its field's key without the `typesense_` prefix. |
| `ClusterMetrics.FieldSamples` | collector/cluster_metrics.go:193-200 | On success there are exactly seven samples, one per table row, labelled with the base URL. Each carries its field's value unchanged and is named by the prefix rule. |
| `ClusterMetrics.HostFieldsNotEmitted` | collector/cluster_metrics.go:27-37 | The CPU, disk, network and system-memory fields are decoded but never sent. Responses that agree on the Typesense fields give the same samples. |
| `ClusterMetrics.FetchAndDecode` | collector/cluster_metrics.go:203-233 | It succeeds exactly on a 200 with a readable body whose decode succeeds. A failure is a parse failure exactly when the 200 body could not be read or decoded. |
| `ClusterMetrics.Collect` | collector/cluster_metrics.go:173-201 | Every scrape adds 1 to `total_scrapes`. `json_parse_failures` grows only on a parse failure. `up` is 1 exactly on success. A failure sends only the three health samples. A success sends the seven gauges, then the health samples. |
| `ClusterMetrics.EmptyDocumentSendsZeros` | collector/cluster_metrics.go:222-233 | A 200 reply whose document has no members (or is a top-level `null`) decodes to the zero struct. The scrape succeeds: up = 1, no parse failure, and the seven gauges are sent, each 0, then the health samples. |
| `ClusterMetrics.BadFieldFailsWholeDecode` | collector/cluster_metrics.go:227-230 | One member that does not parse fails the whole scrape: one parse failure, up = 0, and no gauge sent, however well the other members parse. |
| `ClusterMetrics.CollectIgnoresHostFields` | collector/cluster_metrics.go:193-200 | Two successful fetches that agree on the seven Typesense fields lead to identical scrapes. |
| `ClusterMetrics.Describe` | collector/cluster_metrics.go:162-170 | `Describe` sends exactly ten descriptors: the seven table rows, each labelled "cluster", then up, total_scrapes and json_parse_failures. |
| `ClusterMetrics.CollectIsDescribed` | collector/cluster_metrics.go:162-201 | Every sample any scrape sends was announced by `Describe`, with the right label count. |
| `Aggregator.Describe` | collector/collector.go:53-57 | `Describe` sends exactly two descriptors, the ones defined at collector.go lines 17-29: `typesense_scrape_duration_seconds` and `typesense_scrape_success`, each with the label "collector". |
| `Aggregator.Execute` | collector/collector.go:73-95 | What `Update` sent comes first and once, with no retry. It is followed by the duration sample and the success sample, both labelled with the collector name. Success is 1 exactly when `Update` returned nil and 0 otherwise. |
| `Aggregator.ExecuteAddsTwo` | collector/collector.go:93-94 | Beyond what `Update` sent, `execute` adds exactly two wrapper samples, duration then success. Both were announced by `Describe`. |
| `Aggregator.NewTypesenseCollector` | collector/collector.go:44-51 | The constructor returns an empty collector map and no error. |
| `Aggregator.Collect` | collector/collector.go:60-84 | Every send a registered collector's `Update` makes on the shared channel is passed on, as many times as it was made. So are that collector's duration sample and success sample. |
| `Aggregator.CollectLength` | collector/collector.go:60-84 | A scrape of the wrapper sends exactly one sample per send: the sum over collectors of their `Update` samples plus two. That is at least 2·len(Collectors). |
| `Aggregator.CollectSendsOnlyBatches` | collector/collector.go:60-84 | A scrape of the wrapper sends nothing else. Every sample comes from some registered collector's `execute`: its `Update` samples, or its duration or success sample. |
| `Aggregator.CollectHealthCount` | collector/collector.go:60-71 | A scrape of the wrapper sends exactly 2·len(Collectors) wrapper samples. |
| `Aggregator.CollectOrderIrrelevant` | collector/collector.go:64-69 | The order the collectors run in changes only the order of the samples. |
| `Aggregator.NewCollectsNothing` | collector/collector.go:44-51 | The wrapper as constructed has no collectors, so a scrape of it sends nothing. |

## Left out

- The HTTP GET, `path.Join` and `url.String`, `ioutil.ReadAll`, the response body `Close`, and logging. They are I/O. Their results are inputs: the fetch outcome, and the base URL as an opaque string.
- `json.Unmarshal` for `/stats.json` is one step: the document is either malformed or a decoded response. For `/metrics.json` the model keeps the rule that one bad `,string` member fails the whole decode. How a quoted text parses is an input (`ClusterMetrics.Quoted`), including Go's 64-bit `int` range.
- Float rounding. Values are `real`, so raw / 1000 is exact and `float64(int)` is the integer itself.
- Prometheus library types. A sample is a name, label values and a value. A descriptor is a name and label names. `BuildFQName` is `typesense_<subsystem>_<name>`, since all three parts are non-empty here. Help strings and value types (gauges, except the two scrape counters) are not modelled. The registry's consistency check is modelled only as `Exposition.DescribedBy`.
- Concurrency in `TypesenseCollector.Collect` (goroutines, `WaitGroup`, channel interleaving). The model runs the collectors one after another in a given order. It proves that the order affects only the order of samples. The wall clock is an input (`UpdateRun.duration`).
- `Update` is not implemented by either collector, and the constructor registers none. The wrapper is therefore modelled standalone: what each `Update` does is an input function.
- All of main.go: flags, environment, server, signals, the API-key transport. main.go registers the two collectors directly with Prometheus.
- ClusterMetrics.Decode: the members map is the `/metrics.json` object keyed after Go's key matching. `json.Unmarshal` matches object keys to struct tags without regard to case, preferring an exact match, so a member such as `"Typesense_Memory_Active_Bytes"` must be given under its tag's key. A member whose value is JSON `null` (or the quoted `"null"`), which Go skips for a `,string` field, must be given as absent. A top-level `null` document, which `json.Unmarshal` accepts without touching the struct (so the scrape succeeds with seven zero gauges), must be given as an object with no members. The model does not state the case folding or the null rules itself.
- ApiStats.SplitStatKey: the Go function panics on a key without a space. The model makes a space a precondition, and every collecting function requires the keys of both mappings to hold one (`ApiStats.Iterates`). A scrape of such a response is not modelled.
- ApiStats.Collect: on a successful fetch it requires every key of both mappings to hold a space, and the given orders to list each key once (`ApiStats.Iterates`). Go would panic inside `splitStatKey` on such a key, partway through sending samples. That panic is not modelled.

Facts about the Go code that the model keeps:

- A stat key is split with `strings.Split(key, " ")` and only its first two fields are used. Text after a second space is dropped (`ApiStats.SplitStatKeyDropsRest`), and only the ASCII space separates.
- `total_scrapes` is incremented before the fetch, on every scrape, whatever the outcome (`Scrape.Next`).
- `NewTypesenseCollector` builds an empty collector map (`Aggregator.NewCollectsNothing`).
- `APIStats.Describe` does not announce the two vector descriptors (see Findings).

## Findings

| source | as written | input that shows it | evidently intended | confidence | as-written member | corrected member |
|---|---|---|---|---|---|---|
| collector/api_stats.go:251-259 | `Describe` sends only the ten scalar descriptors and the three health descriptors. The `latency_seconds` and `requests_per_second` descriptors, which `Collect` uses at lines 291-300, are never announced. So the collector breaks the Prometheus Collector contract, which asks `Describe` to send every descriptor `Collect` may use. The default registry that main.go registers on still exposes these samples, but registration cannot check their names and label names against other collectors for clashes, and a pedantic registry rejects them at gather time. | A successful `/stats.json` reply with `latency_ms = {"GET /search": 5}` | `Describe` also sends the two `stats` descriptors, so every collected sample is announced | medium; not executed | `ApiStats.DescribeMissesLatencySamples` | `ApiStats.CollectIsDescribed` |

=== FILE: aggregator.dfy ===
/** The `TypesenseCollector` wrapper: it runs each registered collector's
    `Update` once per scrape and adds two health samples per collector
    (scrape duration and success). Go runs the collectors in parallel;
    here they run one after another, in an order given as a parameter. */
module Aggregator {
  import opened Wrappers
  import opened Exposition

  /** The subsystem of the wrapper's own two metrics. */
  const ScrapeSubsystem: string := "scrape"

  /** The one variable label of the wrapper's metrics (the collector name). */
  const CollectorLabel: string := "collector"

  const DurationName: string := FQName(ScrapeSubsystem, "duration_seconds")
  const SuccessName: string := FQName(ScrapeSubsystem, "success")

  /** One of the wrapper's own samples. */
  predicate IsScrapeSample(s: Sample) {
    s.name == DurationName || s.name == SuccessName
  }

  /** What one call of a collector's `Update` did: the error it returned
      (None for nil), the samples it sent, and the time it took in seconds
      (the clock is not modelled, so the duration is an input). */
  datatype UpdateRun = UpdateRun(err: Option<string>, emitted: seq<Sample>, duration: real)

  /** The collector's own samples do not use the wrapper's metric names. */
  predicate Foreign(run: UpdateRun) {
    forall s :: s in run.emitted ==> !IsScrapeSample(s)
  }

  // ---------------------------------------------------------------------
  // Describe

  /** `TypesenseCollector.Describe`: the duration and success descriptors,
      each with the single label "collector". */
  function Describe(): (r: seq<Desc>)
    ensures |r| == 2
    ensures r[0].name == DurationName && r[1].name == SuccessName
    ensures forall i :: 0 <= i < 2 ==> r[i].labels == [CollectorLabel]
  {
    [Desc(DurationName, [CollectorLabel]), Desc(SuccessName, [CollectorLabel])]
  }

  // ---------------------------------------------------------------------
  // execute

  /** The wrapper's samples within a sequence, in order. */
  function ScrapeSamples(s: seq<Sample>): (r: seq<Sample>)
    ensures |r| <= |s|
    ensures forall x :: x in r ==> x in s && IsScrapeSample(x)
  {
    if |s| == 0 then []
    else if IsScrapeSample(s[0]) then [s[0]] + ScrapeSamples(s[1..])
    else ScrapeSamples(s[1..])
  }

  lemma {:induction false} ScrapeSamplesAppend(a: seq<Sample>, b: seq<Sample>)
    ensures ScrapeSamples(a + b) == ScrapeSamples(a) + ScrapeSamples(b)
    decreases |a|
  {
    if |a| == 0 {
      assert a + b == b;
    } else {
      assert (a + b)[0] == a[0] && (a + b)[1..] == a[1..] + b;
      ScrapeSamplesAppend(a[1..], b);
    }
  }

  lemma {:induction false} NoScrapeSamples(s: seq<Sample>)
    requires forall x :: x in s ==> !IsScrapeSample(x)
    ensures ScrapeSamples(s) == []
    decreases |s|
  {
    if |s| > 0 {
      NoScrapeSamples(s[1..]);
    }
  }

  /** The success flag `execute` sends for a run. */
  function Flag(run: UpdateRun): real {
    if run.err.None? then 1.0 else 0.0
  }

  /** `execute`: run `Update` once, then send the duration sample and the
      success sample, both labelled with the collector's name. Success is
      1 exactly when `Update` returned nil and 0 otherwise. */
  function Execute(name: string, run: UpdateRun): (r: seq<Sample>)
    ensures |r| == |run.emitted| + 2
    ensures r[..|run.emitted|] == run.emitted
    ensures r[|run.emitted|] == Sample(DurationName, [name], run.duration)
    ensures r[|run.emitted| + 1].name == SuccessName && r[|run.emitted| + 1].labels == [name]
    ensures r[|run.emitted| + 1].value == 1.0 <==> run.err.None?
    ensures r[|run.emitted| + 1].value == 0.0 <==> run.err.Some?
  {
    run.emitted + [Sample(DurationName, [name], run.duration), Sample(SuccessName, [name], Flag(run))]
  }

  /** The two wrapper samples of one `execute`, and nothing else, are
      wrapper samples. */
  lemma {:induction false} HealthPairIsScrape(name: string, run: UpdateRun)
    ensures var pair := [Sample(DurationName, [name], run.duration), Sample(SuccessName, [name], Flag(run))];
            ScrapeSamples(pair) == pair
  {
    var pair := [Sample(DurationName, [name], run.duration), Sample(SuccessName, [name], Flag(run))];
    assert pair[1..][1..] == [];
  }

  /** Beyond what `Update` sent, `execute` adds exactly two samples,
      duration then success, and both were announced by `Describe`. */
  lemma {:induction false} ExecuteAddsTwo(name: string, run: UpdateRun)
    requires Foreign(run)
    ensures ScrapeSamples(Execute(name, run)) ==
            [Sample(DurationName, [name], run.duration), Sample(SuccessName, [name], Flag(run))]
    ensures forall s :: s in ScrapeSamples(Execute(name, run)) ==> DescribedBy(s, Describe())
  {
    var pair := [Sample(DurationName, [name], run.duration), Sample(SuccessName, [name], Flag(run))];
    ScrapeSamplesAppend(run.emitted, pair);
    NoScrapeSamples(run.emitted);
    HealthPairIsScrape(name, run);
    var d := Describe();
    assert d[0].name == pair[0].name && d[1].name == pair[1].name;
  }

  // ---------------------------------------------------------------------
  // The wrapper

  /** The wrapper: its collectors by name (what each one is is left
      abstract). */
  datatype TypesenseCollector<C> = TypesenseCollector(collectors: map<string, C>)

  /** `NewTypesenseCollector`: an empty collector map and no error. */
  function NewTypesenseCollector<C>(): (r: Result<TypesenseCollector<C>, string>)
    ensures r.Success? && |r.value.collectors| == 0
  {
    Success(TypesenseCollector(map[]))
  }

  /** Concatenation of a sequence of sample batches. */
  function Flatten(ss: seq<seq<Sample>>): (r: seq<Sample>)
  {
    if |ss| == 0 then [] else ss[0] + Flatten(ss[1..])
  }

  lemma {:induction false} FlattenAppend(a: seq<seq<Sample>>, b: seq<seq<Sample>>)
    ensures Flatten(a + b) == Flatten(a) + Flatten(b)
    decreases |a|
  {
    if |a| == 0 {
      assert a + b == b;
    } else {
      assert (a + b)[0] == a[0] && (a + b)[1..] == a[1..] + b;
      FlattenAppend(a[1..], b);
    }
  }

  lemma {:induction false} FlattenRemove(ss: seq<seq<Sample>>, j: nat)
    requires j < |ss|
    ensures multiset(Flatten(ss)) == multiset(ss[j]) + multiset(Flatten(ss[..j] + ss[j + 1..]))
  {
    var pre, x, post := ss[..j], ss[j], ss[j + 1..];
    assert ss == pre + ([x] + post);
    FlattenAppend(pre, [x] + post);
    FlattenAppend([x], post);
    assert Flatten([x]) == x;
    FlattenAppend(pre, post);
  }

  /** The multiset of samples depends only on the multiset of batches. */
  lemma {:induction false} FlattenPermutation(a: seq<seq<Sample>>, b: seq<seq<Sample>>)
    requires multiset(a) == multiset(b)
    ensures multiset(Flatten(a)) == multiset(Flatten(b))
    decreases |a|
  {
    if |a| > 0 {
      var j := MatchFirst(a, b);
      FlattenRemove(b, j);
      FlattenPermutation(a[1..], b[..j] + b[j + 1..]);
    }
  }

  /** Every sample of every batch is in the concatenation. */
  lemma {:induction false} FlattenContains(ss: seq<seq<Sample>>, i: nat, s: Sample)
    requires i < |ss| && s in ss[i]
    ensures s in Flatten(ss)
    decreases i
  {
    if i > 0 {
      FlattenContains(ss[1..], i - 1, s);
    }
  }

  /** Every sample of the concatenation comes from some batch. */
  lemma {:induction false} FlattenMember(ss: seq<seq<Sample>>, s: Sample)
    requires s in Flatten(ss)
    ensures exists i :: 0 <= i < |ss| && s in ss[i]
    decreases |ss|
  {
    if s !in ss[0] {
      FlattenMember(ss[1..], s);
      var i :| 0 <= i < |ss[1..]| && s in ss[1..][i];
      assert s in ss[i + 1];
    }
  }

  /** The batch one collector contributes to a scrape of the wrapper. */
  function ExecuteOf<C>(collectors: map<string, C>, update: (string, C) -> UpdateRun): string --> seq<Sample> {
    name requires name in collectors => Execute(name, update(name, collectors[name]))
  }

  /** Every send of a collector's batch is in the concatenation of all
      batches, as often as the batch makes it. */
  lemma {:induction false} BatchSent<C>(collectors: map<string, C>, order: seq<string>, update: (string, C) -> UpdateRun, name: string)
    requires IsEnumeration(order, collectors.Keys) && name in collectors
    ensures multiset(Execute(name, update(name, collectors[name]))) <=
            multiset(Flatten(MapSeq(ExecuteOf(collectors, update), order)))
  {
    var batches := MapSeq(ExecuteOf(collectors, update), order);
    var i :| 0 <= i < |order| && order[i] == name;
    assert batches[i] == Execute(name, update(name, collectors[name]));
    FlattenRemove(batches, i);
  }

  /** `s` is a sample some registered collector's `execute` sends. */
  predicate SentBy<C>(collectors: map<string, C>, update: (string, C) -> UpdateRun, s: Sample) {
    exists name :: name in collectors && s in Execute(name, update(name, collectors[name]))
  }

  /** Every sample of the concatenation of all batches comes from some
      collector's batch. */
  lemma {:induction false} SentFromBatch<C>(collectors: map<string, C>, order: seq<string>, update: (string, C) -> UpdateRun, s: Sample)
    requires IsEnumeration(order, collectors.Keys)
    requires s in Flatten(MapSeq(ExecuteOf(collectors, update), order))
    ensures SentBy(collectors, update, s)
  {
    var batches := MapSeq(ExecuteOf(collectors, update), order);
    FlattenMember(batches, s);
    var i :| 0 <= i < |batches| && s in batches[i];
    assert batches[i] == Execute(order[i], update(order[i], collectors[order[i]]));
  }

  /** `TypesenseCollector.Collect` run sequentially: `execute` once for
      every collector, visiting the map in `order`. `update` says what each
      collector's `Update` does on this scrape. Every sample a collector's
      `Update` sends is forwarded, with its duration and success samples
      (`CollectSendsOnlyBatches`: and nothing else is sent). */
  function Collect<C>(e: TypesenseCollector<C>, order: seq<string>, update: (string, C) -> UpdateRun): (r: seq<Sample>)
    requires IsEnumeration(order, e.collectors.Keys)
    ensures forall name :: name in e.collectors ==>
              multiset(update(name, e.collectors[name]).emitted) <= multiset(r)
    ensures forall name :: name in e.collectors ==>
              var run := update(name, e.collectors[name]);
              && Sample(DurationName, [name], run.duration) in r
              && Sample(SuccessName, [name], Flag(run)) in r
    ensures forall name :: name in e.collectors ==>
              multiset(Execute(name, update(name, e.collectors[name]))) <= multiset(r)
  {
    var r := Flatten(MapSeq(ExecuteOf(e.collectors, update), order));
    forall name | name in e.collectors
      ensures var run := update(name, e.collectors[name]);
              && multiset(run.emitted) <= multiset(r)
              && Sample(DurationName, [name], run.duration) in r
              && Sample(SuccessName, [name], Flag(run)) in r
              && multiset(Execute(name, run)) <= multiset(r)
    {
      var run := update(name, e.collectors[name]);
      var batch := Execute(name, run);
      BatchSent(e.collectors, order, update, name);
      assert batch == run.emitted + batch[|run.emitted|..];
      assert batch[|run.emitted|] in multiset(batch) && batch[|run.emitted| + 1] in multiset(batch);
    }
    r
  }

  /** How many samples the batches of the collectors in `order` hold:
      each collector's `Update` samples plus its two wrapper samples. */
  function BatchSizes<C>(collectors: map<string, C>, update: (string, C) -> UpdateRun, order: seq<string>): nat
    requires forall name :: name in order ==> name in collectors
  {
    if |order| == 0 then 0
    else |update(order[0], collectors[order[0]]).emitted| + 2 + BatchSizes(collectors, update, order[1..])
  }

  lemma {:induction false} FlattenLength<C>(collectors: map<string, C>, update: (string, C) -> UpdateRun, order: seq<string>)
    requires forall name :: name in order ==> name in collectors
    ensures |Flatten(MapSeq(ExecuteOf(collectors, update), order))| == BatchSizes(collectors, update, order)
    decreases |order|
  {
    if |order| > 0 {
      var f := ExecuteOf(collectors, update);
      assert MapSeq(f, order)[1..] == MapSeq(f, order[1..]);
      FlattenLength(collectors, update, order[1..]);
    }
  }

  /** A scrape of the wrapper sends exactly one sample per send: every
      collector's `Update` samples, plus two per collector. */
  lemma {:induction false} CollectLength<C>(e: TypesenseCollector<C>, order: seq<string>, update: (string, C) -> UpdateRun)
    requires IsEnumeration(order, e.collectors.Keys)
    ensures |Collect(e, order, update)| == BatchSizes(e.collectors, update, order)
    ensures |Collect(e, order, update)| >= 2 * |e.collectors|
  {
    FlattenLength(e.collectors, update, order);
    BatchSizesAtLeast(e.collectors, update, order);
  }

  lemma {:induction false} BatchSizesAtLeast<C>(collectors: map<string, C>, update: (string, C) -> UpdateRun, order: seq<string>)
    requires forall name :: name in order ==> name in collectors
    ensures BatchSizes(collectors, update, order) >= 2 * |order|
    decreases |order|
  {
    if |order| > 0 {
      BatchSizesAtLeast(collectors, update, order[1..]);
    }
  }

  /** A scrape of the wrapper sends nothing but what the collectors'
      `execute` calls send: their `Update` samples and their duration and
      success samples. */
  lemma {:induction false} CollectSendsOnlyBatches<C>(e: TypesenseCollector<C>, order: seq<string>, update: (string, C) -> UpdateRun, s: Sample)
    requires IsEnumeration(order, e.collectors.Keys)
    requires s in Collect(e, order, update)
    ensures exists name :: name in e.collectors && s in Execute(name, update(name, e.collectors[name]))
  {
    SentFromBatch(e.collectors, order, update, s);
  }

  /** Each batch contributes exactly two wrapper samples. */
  lemma {:induction false} FlattenScrapeSamples<C>(collectors: map<string, C>, update: (string, C) -> UpdateRun, order: seq<string>)
    requires forall name :: name in order ==> name in collectors && Foreign(update(name, collectors[name]))
    ensures |ScrapeSamples(Flatten(MapSeq(ExecuteOf(collectors, update), order)))| == 2 * |order|
    decreases |order|
  {
    if |order| > 0 {
      var f := ExecuteOf(collectors, update);
      var batches := MapSeq(f, order);
      assert batches[1..] == MapSeq(f, order[1..]);
      ScrapeSamplesAppend(batches[0], Flatten(batches[1..]));
      ExecuteAddsTwo(order[0], update(order[0], collectors[order[0]]));
      FlattenScrapeSamples(collectors, update, order[1..]);
    }
  }

  /** A scrape of the wrapper sends exactly two wrapper samples per
      collector, whatever the collectors send themselves. */
  lemma {:induction false} CollectHealthCount<C>(e: TypesenseCollector<C>, order: seq<string>, update: (string, C) -> UpdateRun)
    requires IsEnumeration(order, e.collectors.Keys)
    requires forall name :: name in e.collectors ==> Foreign(update(name, e.collectors[name]))
    ensures |ScrapeSamples(Collect(e, order, update))| == 2 * |e.collectors|
  {
    FlattenScrapeSamples(e.collectors, update, order);
  }

  /** The order the collectors run in changes only the order of the
      samples. */
  lemma {:induction false} CollectOrderIrrelevant<C>(e: TypesenseCollector<C>, order: seq<string>, other: seq<string>, update: (string, C) -> UpdateRun)
    requires IsEnumeration(order, e.collectors.Keys) && IsEnumeration(other, e.collectors.Keys)
    ensures multiset(Collect(e, order, update)) == multiset(Collect(e, other, update))
  {
    var f := ExecuteOf(e.collectors, update);
    MapSeqOverEnumeration(f, order, other, e.collectors.Keys);
    FlattenPermutation(MapSeq(f, order), MapSeq(f, other));
  }

  /** The wrapper as constructed has no collector, so a scrape of it sends
      nothing. */
  lemma NewCollectsNothing<C>(update: (string, C) -> UpdateRun)
    ensures var e := NewTypesenseCollector<C>().value;
            IsEnumeration([], e.collectors.Keys) && Collect(e, [], update) == []
  {
  }
}

=== FILE: api_stats.dfy ===
/** The API-stats collector (`APIStats`): one scrape of `/stats.json`, its
    scalar and per-endpoint metric tables, and the key splitter that turns
    `"GET /search"` into a method and an endpoint label. */
module ApiStats {
  import opened Wrappers
  import opened Exposition
  import GoStrings
  import opened Scrape

  const Subsystem: string := "api_stats"

  /** The ten flat numeric fields of the stats document. */
  datatype ApiScalar =
    | DeleteLatency | DeleteRequestsPerSecond
    | ImportLatency | ImportRequestsPerSecond
    | PendingWriteBatches
    | SearchLatency | SearchRequestsPerSecond
    | TotalRequestsPerSecond
    | WriteLatency | WriteRequestsPerSecond

  /** The two mappings from a "METHOD endpoint" key to a number. */
  datatype ApiVector = Latency | RequestsPerSecond

  /** The decoded `/stats.json` document (`apiStatsResponse`). */
  datatype ApiStatsResponse = ApiStatsResponse(
    deleteLatencyMs: real,
    deleteRequestsPerSecond: real,
    importLatencyMs: real,
    importRequestsPerSecond: real,
    latencyMs: map<string, real>,
    pendingWriteBatches: real,
    requestsPerSecond: map<string, real>,
    searchLatencyMs: real,
    searchRequestsPerSecond: real,
    totalRequestsPerSecond: real,
    writeLatencyMs: real,
    writeRequestsPerSecond: real)

  /** The JSON key each scalar field is decoded from. The latency keys are
      written as `… + MillisSuffix`, and their metric names as
      `… + SecondsSuffix`, so that the unit rule holds by construction
      rather than by comparing long literals. */
  function ScalarKey(f: ApiScalar): string {
    match f
    case DeleteLatency => "delete_latency" + MillisSuffix
    case DeleteRequestsPerSecond => "delete_requests_per_second"
    case ImportLatency => "import_latency" + MillisSuffix
    case ImportRequestsPerSecond => "import_requests_per_second"
    case PendingWriteBatches => "pending_write_batches"
    case SearchLatency => "search_latency" + MillisSuffix
    case SearchRequestsPerSecond => "search_requests_per_second"
    case TotalRequestsPerSecond => "total_requests_per_second"
    case WriteLatency => "write_latency" + MillisSuffix
    case WriteRequestsPerSecond => "write_requests_per_second"
  }

  /** The JSON key each mapping is decoded from. */
  function VectorKey(v: ApiVector): string {
    match v
    case Latency => "latency_ms"
    case RequestsPerSecond => "requests_per_second"
  }

  /** The decoded value of a scalar field, as the upstream sent it. */
  function Raw(r: ApiStatsResponse, f: ApiScalar): real {
    match f
    case DeleteLatency => r.deleteLatencyMs
    case DeleteRequestsPerSecond => r.deleteRequestsPerSecond
    case ImportLatency => r.importLatencyMs
    case ImportRequestsPerSecond => r.importRequestsPerSecond
    case PendingWriteBatches => r.pendingWriteBatches
    case SearchLatency => r.searchLatencyMs
    case SearchRequestsPerSecond => r.searchRequestsPerSecond
    case TotalRequestsPerSecond => r.totalRequestsPerSecond
    case WriteLatency => r.writeLatencyMs
    case WriteRequestsPerSecond => r.writeRequestsPerSecond
  }

  /** The decoded mapping of a vector field. */
  function Entries(r: ApiStatsResponse, v: ApiVector): map<string, real> {
    match v
    case Latency => r.latencyMs
    case RequestsPerSecond => r.requestsPerSecond
  }

  // ---------------------------------------------------------------------
  // Unit normalisation: the naming rule the tables follow.

  /** The suffix of a key reported in milliseconds, and the suffix the
      exposed name carries instead. */
  const MillisSuffix: string := "_ms"
  const SecondsSuffix: string := "_seconds"

  /** A key whose value the upstream reports in milliseconds. */
  predicate IsMillis(key: string) {
    |key| >= 3 && key[|key| - 3..] == MillisSuffix
  }

  /** The exposed metric name for a JSON key: `…_ms` becomes `…_seconds`,
      every other key is kept. */
  function ExposedName(key: string): string {
    if IsMillis(key) then key[..|key| - 3] + SecondsSuffix else key
  }

  /** The exposed value: milliseconds are turned into seconds, every other
      value is passed through. */
  function Exposed(key: string, raw: real): real {
    if IsMillis(key) then raw / 1000.0 else raw
  }

  // ---------------------------------------------------------------------
  // The tables built by `NewAPIStats`.

  /** What an extractor does to the decoded number: `/ 1000.0` (latencies,
      milliseconds to seconds) or nothing. */
  datatype Conversion = PerMille | Unchanged

  function Convert(c: Conversion, x: real): real {
    match c
    case PerMille => x / 1000.0
    case Unchanged => x
  }

  /** A scalar descriptor: metric name (below the subsystem), the field its
      extractor reads and what it does to it. */
  datatype ApiMetric = ApiMetric(name: string, field: ApiScalar, conversion: Conversion) {
    function Value(r: ApiStatsResponse): real {
      Convert(conversion, Raw(r, field))
    }
  }

  /** A vector descriptor: metric name, the mapping it ranges over, and what
      it does to each entry's value. */
  datatype ApiStat = ApiStat(name: string, field: ApiVector, conversion: Conversion)

  /** `metrics`, in the order of the table. */
  const Metrics: seq<ApiMetric> := [
    ApiMetric("delete_latency" + SecondsSuffix, DeleteLatency, PerMille),
    ApiMetric("delete_requests_per_second", DeleteRequestsPerSecond, Unchanged),
    ApiMetric("import_latency" + SecondsSuffix, ImportLatency, PerMille),
    ApiMetric("import_requests_per_second", ImportRequestsPerSecond, Unchanged),
    ApiMetric("pending_write_batches", PendingWriteBatches, Unchanged),
    ApiMetric("search_latency" + SecondsSuffix, SearchLatency, PerMille),
    ApiMetric("search_requests_per_second", SearchRequestsPerSecond, Unchanged),
    ApiMetric("total_requests_per_second", TotalRequestsPerSecond, Unchanged),
    ApiMetric("write_latency" + SecondsSuffix, WriteLatency, PerMille),
    ApiMetric("write_requests_per_second", WriteRequestsPerSecond, Unchanged)
  ]

  /** `stats`, in the order of the table. */
  const Stats: seq<ApiStat> := [
    ApiStat("latency_seconds", Latency, PerMille),
    ApiStat("requests_per_second", RequestsPerSecond, Unchanged)
  ]

  /** A table row is named after its JSON key by the unit rule, and divides
      by 1000 exactly when that key is in milliseconds. */
  predicate FollowsUnitRule(name: string, key: string, conversion: Conversion) {
    name == ExposedName(key) && (conversion == PerMille <==> IsMillis(key))
  }

  lemma MillisRow(stem: string)
    ensures FollowsUnitRule(stem + SecondsSuffix, stem + MillisSuffix, PerMille)
  {
    var key := stem + MillisSuffix;
    assert key[|key| - 3..] == MillisSuffix && key[..|key| - 3] == stem;
  }

  lemma PlainRow(key: string)
    requires |key| >= 3 && key[|key| - 3] != '_'
    ensures FollowsUnitRule(key, key, Unchanged)
  {
    assert key[|key| - 3..][0] == key[|key| - 3];
  }

  /** The row that reads scalar field `f` sits at `FieldIndex(f)` and
      follows the unit rule for `f`'s JSON key. */
  lemma ScalarRow(f: ApiScalar)
    ensures Metrics[FieldIndex(f)].field == f
    ensures FollowsUnitRule(Metrics[FieldIndex(f)].name, ScalarKey(f), Metrics[FieldIndex(f)].conversion)
  {
    if f.DeleteLatency? || f.ImportLatency? || f.SearchLatency? || f.WriteLatency? {
      LatencyRow(f);
    } else {
      RateRow(f);
    }
  }

  /** `ScalarRow` for the four millisecond fields. */
  lemma LatencyRow(f: ApiScalar)
    requires f.DeleteLatency? || f.ImportLatency? || f.SearchLatency? || f.WriteLatency?
    ensures Metrics[FieldIndex(f)].field == f
    ensures FollowsUnitRule(Metrics[FieldIndex(f)].name, ScalarKey(f), Metrics[FieldIndex(f)].conversion)
  {
    match f
    case DeleteLatency => MillisRow("delete_latency");
    case ImportLatency => MillisRow("import_latency");
    case SearchLatency => MillisRow("search_latency");
    case WriteLatency => MillisRow("write_latency");
  }

  /** `ScalarRow` for the six fields exposed unchanged. */
  lemma RateRow(f: ApiScalar)
    requires !(f.DeleteLatency? || f.ImportLatency? || f.SearchLatency? || f.WriteLatency?)
    ensures Metrics[FieldIndex(f)].field == f
    ensures FollowsUnitRule(Metrics[FieldIndex(f)].name, ScalarKey(f), Metrics[FieldIndex(f)].conversion)
  {
    match f
    case DeleteRequestsPerSecond => PlainRow("delete_requests_per_second");
    case ImportRequestsPerSecond => PlainRow("import_requests_per_second");
    case PendingWriteBatches => PlainRow("pending_write_batches");
    case SearchRequestsPerSecond => PlainRow("search_requests_per_second");
    case TotalRequestsPerSecond => PlainRow("total_requests_per_second");
    case WriteRequestsPerSecond => PlainRow("write_requests_per_second");
  }

  /** Position of each scalar field in the document's declaration order. */
  function FieldIndex(f: ApiScalar): (n: nat)
    ensures n < 10
  {
    match f
    case DeleteLatency => 0
    case DeleteRequestsPerSecond => 1
    case ImportLatency => 2
    case ImportRequestsPerSecond => 3
    case PendingWriteBatches => 4
    case SearchLatency => 5
    case SearchRequestsPerSecond => 6
    case TotalRequestsPerSecond => 7
    case WriteLatency => 8
    case WriteRequestsPerSecond => 9
  }

  /** A row that follows the unit rule converts values as the rule says. */
  lemma ConversionFollowsUnitRule(name: string, key: string, conversion: Conversion, x: real)
    requires FollowsUnitRule(name, key, conversion)
    ensures Convert(conversion, x) == Exposed(key, x)
  {
  }

  lemma MetricsRowsFollowUnitRule()
    ensures forall i :: 0 <= i < |Metrics| ==> FieldIndex(Metrics[i].field) == i
    ensures forall i :: 0 <= i < |Metrics| ==>
              FollowsUnitRule(Metrics[i].name, ScalarKey(Metrics[i].field), Metrics[i].conversion)
  {
    forall i | 0 <= i < |Metrics|
      ensures FieldIndex(Metrics[i].field) == i
      ensures FollowsUnitRule(Metrics[i].name, ScalarKey(Metrics[i].field), Metrics[i].conversion)
    {
      ScalarRow(Metrics[i].field);
    }
  }

  lemma MetricsCoverFields()
    ensures forall f: ApiScalar :: Metrics[FieldIndex(f)].field == f
  {
    forall f: ApiScalar ensures Metrics[FieldIndex(f)].field == f {
      ScalarRow(f);
    }
  }

  /** The scalar table reads every scalar field of the document, each in
      exactly one row (row `FieldIndex(f)` reads `f`), and each row is named
      and scaled by the unit rule: the four latencies are exposed in seconds
      (raw / 1000), the rates and the pending batches unchanged. */
  lemma MetricsFollowSchema()
    ensures |Metrics| == 10
    ensures forall i :: 0 <= i < |Metrics| ==> FieldIndex(Metrics[i].field) == i
    ensures forall f: ApiScalar :: Metrics[FieldIndex(f)].field == f
    ensures forall i :: 0 <= i < |Metrics| ==>
              FollowsUnitRule(Metrics[i].name, ScalarKey(Metrics[i].field), Metrics[i].conversion)
    ensures forall i, r :: 0 <= i < |Metrics| ==>
              Metrics[i].Value(r) == Exposed(ScalarKey(Metrics[i].field), Raw(r, Metrics[i].field))
  {
    MetricsRowsFollowUnitRule();
    MetricsCoverFields();
    forall i, r | 0 <= i < |Metrics|
      ensures Metrics[i].Value(r) == Exposed(ScalarKey(Metrics[i].field), Raw(r, Metrics[i].field))
    {
      ConversionFollowsUnitRule(Metrics[i].name, ScalarKey(Metrics[i].field), Metrics[i].conversion, Raw(r, Metrics[i].field));
    }
  }

  /** The vector table ranges over the latency mapping and then the rate
      mapping, named and scaled by the same unit rule as the scalars. */
  lemma StatsFollowSchema()
    ensures |Stats| == 2 && Stats[0].field == Latency && Stats[1].field == RequestsPerSecond
    ensures forall i :: 0 <= i < |Stats| ==>
              FollowsUnitRule(Stats[i].name, VectorKey(Stats[i].field), Stats[i].conversion)
  {
    MillisRow("latency");
    assert Stats[0].name == "latency" + SecondsSuffix && VectorKey(Stats[0].field) == "latency" + MillisSuffix;
    PlainRow("requests_per_second");
  }

  // ---------------------------------------------------------------------
  // splitStatKey

  /** `splitStatKey`: the first two fields of `strings.Split(key, " ")`.
      Go indexes `split[1]`, which panics for a key without a space, so the
      key must hold one. The method is the text before the first space; the
      endpoint is the text after it up to the next space or the end. */
  function SplitStatKey(key: string): (r: (string, string))
    requires ' ' in key
    ensures |r.0| < |key| && key[..|r.0|] == r.0 && key[|r.0|] == ' ' && ' ' !in r.0
    ensures var rest := key[|r.0| + 1..];
            && |r.1| <= |rest| && rest[..|r.1|] == r.1 && ' ' !in r.1
            && (|r.1| == |rest| || rest[|r.1|] == ' ')
  {
    var split := GoStrings.Split(key, ' ');
    var i := GoStrings.IndexOf(key, ' ');
    assert split == [key[..i]] + GoStrings.Split(key[i + 1..], ' ');
    (split[0], split[1])
  }

  /** `split[1]` exists exactly when the key holds a space: the only keys
      `splitStatKey` does not panic on. */
  lemma SecondFieldExists(key: string)
    ensures |GoStrings.Split(key, ' ')| >= 2 <==> ' ' in key
  {
  }

  /** Round trip: joining a space-free method and endpoint with one space and
      splitting again gives them back. */
  lemma {:induction false} SplitStatKeyRoundTrip(verb: string, endpoint: string)
    requires ' ' !in verb && ' ' !in endpoint
    ensures ' ' in verb + " " + endpoint
    ensures SplitStatKey(verb + " " + endpoint) == (verb, endpoint)
  {
    var key := verb + " " + endpoint;
    assert key == GoStrings.Join([verb, endpoint], ' ');
    GoStrings.SplitJoin([verb, endpoint], ' ');
  }

  /** A key with more than one space keeps only the first two fields: the
      rest after the second space is dropped, not appended to the endpoint. */
  lemma {:induction false} SplitStatKeyDropsRest(verb: string, endpoint: string, tail: string)
    requires ' ' !in verb && ' ' !in endpoint
    ensures ' ' in verb + " " + endpoint + " " + tail
    ensures SplitStatKey(verb + " " + endpoint + " " + tail) == (verb, endpoint)
  {
    var key := verb + " " + endpoint + " " + tail;
    var pieces := GoStrings.Split(tail, ' ');
    var parts := [verb, endpoint] + pieces;
    forall i | 0 <= i < |parts| ensures ' ' !in parts[i] {
      if i >= 2 { assert parts[i] == pieces[i - 2]; }
    }
    assert parts[2..] == pieces;
    assert GoStrings.Join(parts[1..], ' ') == endpoint + " " + tail by {
      assert parts[1..][1..] == pieces;
    }
    assert GoStrings.Join(parts, ' ') == key;
    GoStrings.SplitJoin(parts, ' ');
  }

  // ---------------------------------------------------------------------
  // Samples

  /** Every key of both mappings can be split (holds a space). */
  predicate SplittableKeys(r: ApiStatsResponse) {
    && (forall k :: k in r.latencyMs ==> ' ' in k)
    && (forall k :: k in r.requestsPerSecond ==> ' ' in k)
  }

  /** Every key of `order` is a key of `m` that can be split. */
  predicate Visitable(m: map<string, real>, order: seq<string>) {
    forall k :: k in order ==> k in m && ' ' in k
  }

  /** The sample a vector descriptor emits for one entry of its mapping:
      named after the descriptor, labelled with the base URL and the key's
      method and endpoint, valued by the descriptor's conversion. The
      method and endpoint are the space-free runs before and after the
      first space, the endpoint running up to the next space or the end. */
  function EntrySample(stat: ApiStat, url: string, key: string, raw: real): (s: Sample)
    requires ' ' in key
    ensures s.name == FQName(Subsystem, stat.name)
    ensures |s.labels| == 3 && s.labels[0] == url
    ensures s.labels[1] + " " + s.labels[2] <= key
    ensures ' ' !in s.labels[1] && ' ' !in s.labels[2]
    ensures var n := |s.labels[1]| + 1 + |s.labels[2]|; n == |key| || key[n] == ' '
    ensures s.value == Convert(stat.conversion, raw)
  {
    var (verb, endpoint) := SplitStatKey(key);
    Sample(FQName(Subsystem, stat.name), [url, verb, endpoint], Convert(stat.conversion, raw))
  }

  /** The body of the `range` loop over one mapping, as a function of the
      visited key. */
  function EntryOf(stat: ApiStat, url: string, m: map<string, real>): string --> Sample {
    k requires k in m && ' ' in k => EntrySample(stat, url, k, m[k])
  }

  /** A vector descriptor's samples, visiting the mapping in `order` (the
      order Go's `range` happened to choose). */
  function StatSamples(stat: ApiStat, url: string, m: map<string, real>, order: seq<string>): (r: seq<Sample>)
    requires Visitable(m, order)
    ensures |r| == |order|
    ensures forall i :: 0 <= i < |r| ==> r[i] == EntrySample(stat, url, order[i], m[order[i]])
  {
    MapSeq(EntryOf(stat, url, m), order)
  }

  /** One sample per map entry, whatever order Go ranges in: exactly |m|
      samples, each entry's sample among them, each sample from some entry,
      and any two visiting orders give the same multiset of samples. */
  lemma {:induction false} StatSamplesCoverMap(stat: ApiStat, url: string, m: map<string, real>, order: seq<string>, other: seq<string>)
    requires forall k :: k in m ==> ' ' in k
    requires IsEnumeration(order, m.Keys) && IsEnumeration(other, m.Keys)
    ensures |StatSamples(stat, url, m, order)| == |m|
    ensures forall k :: k in m ==> EntrySample(stat, url, k, m[k]) in StatSamples(stat, url, m, order)
    ensures forall s :: s in StatSamples(stat, url, m, order) ==>
              exists k :: k in m && s == EntrySample(stat, url, k, m[k])
    ensures multiset(StatSamples(stat, url, m, order)) == multiset(StatSamples(stat, url, m, other))
  {
    var f := EntryOf(stat, url, m);
    MapSeqOverEnumeration(f, order, other, m.Keys);
    forall k | k in m ensures f(k) == EntrySample(stat, url, k, m[k]) {}
  }

  /** The scalar samples: one per row of `Metrics`, labelled with the base
      URL, named and valued by the unit rule. */
  function ScalarSamples(url: string, resp: ApiStatsResponse): (r: seq<Sample>)
    ensures |r| == 10
    ensures forall i :: 0 <= i < |r| ==>
              && r[i].labels == [url]
              && r[i].name == FQName(Subsystem, ExposedName(ScalarKey(Metrics[i].field)))
              && r[i].value == Exposed(ScalarKey(Metrics[i].field), Raw(resp, Metrics[i].field))
  {
    MetricsFollowSchema();
    seq(|Metrics|, i requires 0 <= i < |Metrics| => Sample(FQName(Subsystem, Metrics[i].name), [url], Metrics[i].Value(resp)))
  }

  /** Go's map iteration visits each mapping of `resp` in these orders, and
      every key can be split. */
  predicate Iterates(resp: ApiStatsResponse, latencyOrder: seq<string>, rateOrder: seq<string>) {
    && SplittableKeys(resp)
    && IsEnumeration(latencyOrder, resp.latencyMs.Keys)
    && IsEnumeration(rateOrder, resp.requestsPerSecond.Keys)
  }

  /** Everything a successful scrape emits before the health samples: the
      `metrics` table, then the `latency_seconds` row over the latency
      mapping, then the `requests_per_second` row over the rate mapping. */
  function FieldSamples(url: string, resp: ApiStatsResponse, latencyOrder: seq<string>, rateOrder: seq<string>): (r: seq<Sample>)
    requires Iterates(resp, latencyOrder, rateOrder)
    ensures var lat := |resp.latencyMs|;
            && |r| == 10 + lat + |resp.requestsPerSecond|
            && r[..10] == ScalarSamples(url, resp)
            && r[10..10 + lat] == StatSamples(Stats[0], url, resp.latencyMs, latencyOrder)
            && r[10 + lat..] == StatSamples(Stats[1], url, resp.requestsPerSecond, rateOrder)
  {
    var a := ScalarSamples(url, resp);
    var b := StatSamples(Stats[0], url, Entries(resp, Stats[0].field), latencyOrder);
    var c := StatSamples(Stats[1], url, Entries(resp, Stats[1].field), rateOrder);
    ConcatSlices(a, b, c);
    a + b + c
  }

  // ---------------------------------------------------------------------
  // One scrape

  /** The JSON document read from `/stats.json`: something `json.Unmarshal`
      rejects, or a decoded response. */
  datatype ApiDoc = Malformed | Doc(resp: ApiStatsResponse)

  /** `fetchAndDecodeAPIStats`: the transport checks, then the decode. */
  function FetchAndDecode(f: Fetch<ApiDoc>): (r: Result<ApiStatsResponse, FetchError>)
    ensures r.Success? <==> Healthy(f)
    ensures r.Success? ==> r.value == f.body.doc.resp
    ensures r.Failure? ==> (IsParseFailure(r.error) <==> ParseFailed(f))
  {
    match Receive(f)
    case Failure(e) => Failure(e)
    case Success(doc) =>
      match doc
      case Malformed => Failure(Unmarshal)
      case Doc(resp) => Success(resp)
  }

  /** The fetch got a 200, its body was read and decoded. */
  predicate Healthy(f: Fetch<ApiDoc>) {
    f.Reply? && f.status == StatusOK && f.body.Read? && f.body.doc.Doc?
  }

  /** The fetch got a 200 but its body could not be read or decoded. */
  predicate ParseFailed(f: Fetch<ApiDoc>) {
    f.Reply? && f.status == StatusOK && (f.body.ReadFailed? || f.body.doc.Malformed?)
  }

  /** `APIStats.Collect`: count the scrape, fetch and decode, set up, emit
      the field samples on success, and always end with the three health
      samples. */
  function Collect(c: Counters, url: string, f: Fetch<ApiDoc>, latencyOrder: seq<string>, rateOrder: seq<string>): (r: ScrapeResult)
    requires Healthy(f) ==> Iterates(f.body.doc.resp, latencyOrder, rateOrder)
    ensures r.counters.totalScrapes == c.totalScrapes + 1
    ensures r.counters.jsonParseFailures == c.jsonParseFailures + (if ParseFailed(f) then 1 else 0)
    ensures r.counters.up == (if Healthy(f) then 1.0 else 0.0)
    ensures Valid(c) ==> Valid(r.counters)
    ensures !Healthy(f) ==> r.samples == Health(Subsystem, r.counters)
    ensures Healthy(f) ==>
              r.samples == FieldSamples(url, f.body.doc.resp, latencyOrder, rateOrder) + Health(Subsystem, r.counters)
  {
    match FetchAndDecode(f)
    case Failure(e) => Finish(Subsystem, c, Failure(e))
    case Success(resp) => Finish(Subsystem, c, Success(FieldSamples(url, resp, latencyOrder, rateOrder)))
  }

  /** A status other than exactly 200 (a 204 or a 500 alike) is a failed
      scrape: up drops to 0, no field sample is sent, and json_parse_failures
      does not move. */
  lemma NonOkStatusFails(c: Counters, url: string, code: int, body: Body<ApiDoc>, latencyOrder: seq<string>, rateOrder: seq<string>)
    requires code != StatusOK
    ensures var r := Collect(c, url, Reply(code, body), latencyOrder, rateOrder);
            && r.counters.up == 0.0
            && r.counters.jsonParseFailures == c.jsonParseFailures
            && r.samples == Health(Subsystem, r.counters)
  {
  }

  // ---------------------------------------------------------------------
  // Describe

  /** The descriptor of each `metrics` row: one variable label, "cluster". */
  function MetricDescs(): seq<Desc> {
    seq(|Metrics|, i requires 0 <= i < |Metrics| => Desc(FQName(Subsystem, Metrics[i].name), [ClusterLabel]))
  }

  /** The descriptor of each `stats` row: labels cluster, method, endpoint. */
  function StatDescs(): seq<Desc> {
    seq(|Stats|, i requires 0 <= i < |Stats| => Desc(FQName(Subsystem, Stats[i].name), [ClusterLabel, "method", "endpoint"]))
  }

  /** `APIStats.Describe` as written: the `metrics` descriptors and the three
      health descriptors; the two `stats` descriptors are not sent. */
  function Describe(): (r: seq<Desc>)
    ensures |r| == 13
    ensures r[10..] == HealthDescs(Subsystem)
    ensures forall i :: 0 <= i < 10 ==> r[i] == Desc(FQName(Subsystem, Metrics[i].name), [ClusterLabel])
  {
    MetricDescs() + HealthDescs(Subsystem)
  }

  /** Every scalar metric's name is longer than both vector names, which
      shows them distinct without comparing each pair of literals. */
  lemma ScalarNameIsLong(f: ApiScalar)
    ensures |ExposedName(ScalarKey(f))| > 19
  {
    match f
    case DeleteLatency => MillisRow("delete_latency");
    case ImportLatency => MillisRow("import_latency");
    case SearchLatency => MillisRow("search_latency");
    case WriteLatency => MillisRow("write_latency");
    case _ =>
  }

  /** No scalar or health metric shares a name with a vector metric. */
  lemma StatNamesAreFresh(i: nat, j: nat)
    requires i < |Metrics| && j < |Stats|
    ensures Metrics[i].name != Stats[j].name
    ensures Stats[j].name != "up" && Stats[j].name != "total_scrapes" && Stats[j].name != "json_parse_failures"
  {
    var f := Metrics[i].field;
    MetricsRowsFollowUnitRule();
    ScalarRow(f);
    ScalarNameIsLong(f);
  }

  /** No descriptor `Describe` sends carries the name of a `stats` row. */
  lemma {:induction false} StatNamesUndescribed(s: Sample, j: nat)
    requires j < |Stats| && s.name == FQName(Subsystem, Stats[j].name)
    ensures !DescribedBy(s, Describe())
  {
    var d := Describe();
    forall i | 0 <= i < |d| ensures d[i].name != s.name {
      if i < 10 {
        StatNamesAreFresh(i, j);
        FQNameInjective(Subsystem, Metrics[i].name, Stats[j].name);
      } else {
        StatNamesAreFresh(0, j);
        assert d[i] == HealthDescs(Subsystem)[i - 10];
        FQNameInjective(Subsystem, "up", Stats[j].name);
        FQNameInjective(Subsystem, "total_scrapes", Stats[j].name);
        FQNameInjective(Subsystem, "json_parse_failures", Stats[j].name);
      }
    }
  }

  /** A successful scrape whose latency mapping is not empty sends a
      `latency_seconds` sample that `Describe` never announced. */
  lemma {:induction false} DescribeMissesLatencySamples(c: Counters, url: string, f: Fetch<ApiDoc>, latencyOrder: seq<string>, rateOrder: seq<string>)
    requires Healthy(f) && Iterates(f.body.doc.resp, latencyOrder, rateOrder)
    requires |f.body.doc.resp.latencyMs| > 0
    ensures var r := Collect(c, url, f, latencyOrder, rateOrder);
            && |r.samples| > 10
            && r.samples[10].name == FQName(Subsystem, "latency_seconds")
            && !DescribedBy(r.samples[10], Describe())
  {
    var resp := f.body.doc.resp;
    var fields := FieldSamples(url, resp, latencyOrder, rateOrder);
    var lat := StatSamples(Stats[0], url, resp.latencyMs, latencyOrder);
    var r := Collect(c, url, f, latencyOrder, rateOrder);
    assert fields[10] == fields[10..10 + |lat|][0] == lat[0];
    assert r.samples[10] == fields[10];
    StatNamesUndescribed(r.samples[10], 0);
  }

  /** The corrected `Describe`: also announces the two `stats` descriptors,
      between the `metrics` descriptors and the health descriptors. */
  function DescribeComplete(): (r: seq<Desc>)
    ensures |r| == 15
    ensures r[..10] == Describe()[..10] && r[12..] == HealthDescs(Subsystem)
    ensures forall j :: 0 <= j < |Stats| ==>
              r[10 + j] == Desc(FQName(Subsystem, Stats[j].name), [ClusterLabel, "method", "endpoint"])
  {
    MetricDescs() + StatDescs() + HealthDescs(Subsystem)
  }

  lemma {:induction false} HealthDescribed(c: Counters)
    ensures forall s :: s in Health(Subsystem, c) ==> DescribedBy(s, DescribeComplete())
  {
    var d := DescribeComplete();
    var h := Health(Subsystem, c);
    forall i | 0 <= i < 3 ensures DescribedBy(h[i], d) {
      assert d[12 + i] == d[12..][i];
    }
  }

  lemma {:induction false} ScalarsDescribed(url: string, resp: ApiStatsResponse)
    ensures forall s :: s in ScalarSamples(url, resp) ==> DescribedBy(s, DescribeComplete())
  {
    var d := DescribeComplete();
    var r := ScalarSamples(url, resp);
    MetricsFollowSchema();
    forall i | 0 <= i < 10 ensures DescribedBy(r[i], d) {
      assert d[i] == Describe()[..10][i];
    }
  }

  lemma {:induction false} StatsDescribed(j: nat, url: string, m: map<string, real>, order: seq<string>)
    requires j < |Stats| && Visitable(m, order)
    ensures forall s :: s in StatSamples(Stats[j], url, m, order) ==> DescribedBy(s, DescribeComplete())
  {
    var d := DescribeComplete();
    forall s | s in StatSamples(Stats[j], url, m, order) ensures DescribedBy(s, d) {
      assert d[10 + j].name == s.name;
    }
  }

  /** With the corrected `Describe`, every sample any scrape sends is
      announced, with the right number of labels. */
  lemma {:induction false} CollectIsDescribed(c: Counters, url: string, f: Fetch<ApiDoc>, latencyOrder: seq<string>, rateOrder: seq<string>)
    requires Healthy(f) ==> Iterates(f.body.doc.resp, latencyOrder, rateOrder)
    ensures forall s :: s in Collect(c, url, f, latencyOrder, rateOrder).samples ==> DescribedBy(s, DescribeComplete())
  {
    var r := Collect(c, url, f, latencyOrder, rateOrder);
    HealthDescribed(r.counters);
    if Healthy(f) {
      var resp := f.body.doc.resp;
      var fields := FieldSamples(url, resp, latencyOrder, rateOrder);
      var lat := |resp.latencyMs|;
      ScalarsDescribed(url, resp);
      StatsDescribed(0, url, resp.latencyMs, latencyOrder);
      StatsDescribed(1, url, resp.requestsPerSecond, rateOrder);
      assert fields == fields[..10] + fields[10..10 + lat] + fields[10 + lat..];
    }
  }

  /** A successful scrape sends 13 samples plus one per entry of each
      mapping, every entry's sample among them, and the order Go ranges
      over the mappings in changes only the order of the samples. */
  lemma {:induction false} CollectSendsEveryEntry(c: Counters, url: string, f: Fetch<ApiDoc>,
                               latencyOrder: seq<string>, rateOrder: seq<string>,
                               latencyOrder': seq<string>, rateOrder': seq<string>)
    requires Healthy(f)
    requires Iterates(f.body.doc.resp, latencyOrder, rateOrder)
    requires Iterates(f.body.doc.resp, latencyOrder', rateOrder')
    ensures var resp := f.body.doc.resp;
            var r := Collect(c, url, f, latencyOrder, rateOrder);
            && |r.samples| == 13 + |resp.latencyMs| + |resp.requestsPerSecond|
            && (forall k :: k in resp.latencyMs ==> EntrySample(Stats[0], url, k, resp.latencyMs[k]) in r.samples)
            && (forall k :: k in resp.requestsPerSecond ==> EntrySample(Stats[1], url, k, resp.requestsPerSecond[k]) in r.samples)
            && multiset(r.samples) == multiset(Collect(c, url, f, latencyOrder', rateOrder').samples)
  {
    var resp := f.body.doc.resp;
    var a := ScalarSamples(url, resp);
    var b := StatSamples(Stats[0], url, resp.latencyMs, latencyOrder);
    var b' := StatSamples(Stats[0], url, resp.latencyMs, latencyOrder');
    var e := StatSamples(Stats[1], url, resp.requestsPerSecond, rateOrder);
    var e' := StatSamples(Stats[1], url, resp.requestsPerSecond, rateOrder');
    StatSamplesCoverMap(Stats[0], url, resp.latencyMs, latencyOrder, latencyOrder');
    StatSamplesCoverMap(Stats[1], url, resp.requestsPerSecond, rateOrder, rateOrder');
    var fields := FieldSamples(url, resp, latencyOrder, rateOrder);
    var fields' := FieldSamples(url, resp, latencyOrder', rateOrder');
    assert fields == a + b + e by {
      assert fields == fields[..10] + fields[10..10 + |b|] + fields[10 + |b|..];
    }
    assert fields' == a + b' + e' by {
      assert fields' == fields'[..10] + fields'[10..10 + |b'|] + fields'[10 + |b'|..];
    }
    var r := Collect(c, url, f, latencyOrder, rateOrder);
    var r' := Collect(c, url, f, latencyOrder', rateOrder');
    assert r.counters == r'.counters;
    var h := Health(Subsystem, r.counters);
    assert r.samples == a + b + e + h && r'.samples == a + b' + e' + h;
    assert multiset(r.samples) == multiset(a) + multiset(b) + multiset(e) + multiset(h);
    assert multiset(r'.samples) == multiset(a) + multiset(b') + multiset(e') + multiset(h);
  }
}

=== FILE: cluster_metrics.dfy ===
/** The cluster metrics collector (`ClusterMetrics`): one scrape of
    `/metrics.json`, whose numbers arrive as JSON strings, the seven
    memory gauges it exposes, and the descriptors it announces. */
module ClusterMetrics {
  import opened Wrappers
  import opened Exposition
  import opened Scrape

  /** The subsystem of every metric of this collector. */
  const Subsystem: string := "cluster_metrics"

  /** The prefix the seven exposed fields share in the upstream document. */
  const TypesensePrefix: string := "typesense_"

  // ---------------------------------------------------------------------
  // The upstream document

  /** The fields of `clusterMetricsResponse`, in declaration order. */
  datatype ClusterField =
    | SystemCpu1Active | SystemCpu2Active | SystemCpu3Active | SystemCpu4Active | SystemCpuActive
    | SystemDiskTotal | SystemDiskUsed | SystemMemoryTotal | SystemMemoryUsed
    | SystemNetworkReceived | SystemNetworkSent
    | MemoryActive | MemoryAllocated | MemoryFragmentationRatio | MemoryMapped
    | MemoryMetadata | MemoryResident | MemoryRetained

  /** The JSON key each field is decoded from. The seven Typesense keys
      are written as `TypesensePrefix + …` so that the naming rule below
      holds by construction rather than by comparing long literals. */
  function Key(f: ClusterField): string {
    match f
    case SystemCpu1Active => "system_cpu1_active_percentage"
    case SystemCpu2Active => "system_cpu2_active_percentage"
    case SystemCpu3Active => "system_cpu3_active_percentage"
    case SystemCpu4Active => "system_cpu4_active_percentage"
    case SystemCpuActive => "system_cpu_active_percentage"
    case SystemDiskTotal => "system_disk_total_bytes"
    case SystemDiskUsed => "system_disk_used_bytes"
    case SystemMemoryTotal => "system_memory_total_bytes"
    case SystemMemoryUsed => "system_memory_used_bytes"
    case SystemNetworkReceived => "system_network_received_bytes"
    case SystemNetworkSent => "system_network_sent_bytes"
    case MemoryActive => TypesensePrefix + "memory_active_bytes"
    case MemoryAllocated => TypesensePrefix + "memory_allocated_bytes"
    case MemoryFragmentationRatio => TypesensePrefix + "memory_fragmentation_ratio"
    case MemoryMapped => TypesensePrefix + "memory_mapped_bytes"
    case MemoryMetadata => TypesensePrefix + "memory_metadata_bytes"
    case MemoryResident => TypesensePrefix + "memory_resident_bytes"
    case MemoryRetained => TypesensePrefix + "memory_retained_bytes"
  }

  /** The fields Go declares as `int`; the others are `float64`. */
  predicate IsInt(f: ClusterField) {
    !(f.SystemCpu1Active? || f.SystemCpu2Active? || f.SystemCpu3Active? || f.SystemCpu4Active?
      || f.SystemCpuActive? || f.MemoryFragmentationRatio?)
  }

  /** The fields reported about Typesense itself rather than the host. */
  predicate IsTypesenseField(f: ClusterField) {
    f.MemoryActive? || f.MemoryAllocated? || f.MemoryFragmentationRatio? || f.MemoryMapped?
    || f.MemoryMetadata? || f.MemoryResident? || f.MemoryRetained?
  }

  /** The decoded response. Integer fields keep Go's `int`, the others are
      `float64` (modelled as real). */
  datatype ClusterMetricsResponse = ClusterMetricsResponse(
    systemCpu1ActivePercentage: real,
    systemCpu2ActivePercentage: real,
    systemCpu3ActivePercentage: real,
    systemCpu4ActivePercentage: real,
    systemCpuActivePercentage: real,
    systemDiskTotalBytes: int,
    systemDiskUsedBytes: int,
    systemMemoryTotalBytes: int,
    systemMemoryUsedBytes: int,
    systemNetworkReceivedBytes: int,
    systemNetworkSentBytes: int,
    typesenseMemoryActiveBytes: int,
    typesenseMemoryAllocatedBytes: int,
    typesenseMemoryFragmentationRatio: real,
    typesenseMemoryMappedBytes: int,
    typesenseMemoryMetadataBytes: int,
    typesenseMemoryResidentBytes: int,
    typesenseMemoryRetainedBytes: int)

  /** A field's value as float64 would hold it (`float64(resp.X)` for the
      integer fields). */
  function Field(r: ClusterMetricsResponse, f: ClusterField): real {
    match f
    case SystemCpu1Active => r.systemCpu1ActivePercentage
    case SystemCpu2Active => r.systemCpu2ActivePercentage
    case SystemCpu3Active => r.systemCpu3ActivePercentage
    case SystemCpu4Active => r.systemCpu4ActivePercentage
    case SystemCpuActive => r.systemCpuActivePercentage
    case SystemDiskTotal => r.systemDiskTotalBytes as real
    case SystemDiskUsed => r.systemDiskUsedBytes as real
    case SystemMemoryTotal => r.systemMemoryTotalBytes as real
    case SystemMemoryUsed => r.systemMemoryUsedBytes as real
    case SystemNetworkReceived => r.systemNetworkReceivedBytes as real
    case SystemNetworkSent => r.systemNetworkSentBytes as real
    case MemoryActive => r.typesenseMemoryActiveBytes as real
    case MemoryAllocated => r.typesenseMemoryAllocatedBytes as real
    case MemoryFragmentationRatio => r.typesenseMemoryFragmentationRatio
    case MemoryMapped => r.typesenseMemoryMappedBytes as real
    case MemoryMetadata => r.typesenseMemoryMetadataBytes as real
    case MemoryResident => r.typesenseMemoryResidentBytes as real
    case MemoryRetained => r.typesenseMemoryRetainedBytes as real
  }

  // ---------------------------------------------------------------------
  // Decoding with the `,string` option

  /** A JSON member value as the `,string` option sees it: what its quoted
      text parses to as a float64 and as an int (None when it does not, or
      when the value is neither a quoted string nor null). A null member,
      which Go skips, is given as absent from the members map. */
  datatype Quoted = Quoted(float: Option<real>, integer: Option<int>)

  /** The member for field `f` is absent, or its text parses as the field's
      Go type. */
  predicate Accepts(members: map<string, Quoted>, f: ClusterField) {
    Key(f) in members ==>
      if IsInt(f) then members[Key(f)].integer.Some? else members[Key(f)].float.Some?
  }

  /** The value field `f` receives: Go's zero value when its key is absent. */
  function Decoded(members: map<string, Quoted>, f: ClusterField): real
    requires Accepts(members, f)
  {
    if Key(f) !in members then 0.0
    else if IsInt(f) then members[Key(f)].integer.value as real
    else members[Key(f)].float.value
  }

  /** The integer an `int` field receives. */
  function IntMember(members: map<string, Quoted>, f: ClusterField): (n: int)
    requires IsInt(f) && Accepts(members, f)
    ensures n as real == Decoded(members, f)
  {
    if Key(f) in members then members[Key(f)].integer.value else 0
  }

  /** Every field filled from its member, once all of them parse. */
  function Build(members: map<string, Quoted>): ClusterMetricsResponse
    requires forall f :: Accepts(members, f)
  {
    ClusterMetricsResponse(
      Decoded(members, SystemCpu1Active),
      Decoded(members, SystemCpu2Active),
      Decoded(members, SystemCpu3Active),
      Decoded(members, SystemCpu4Active),
      Decoded(members, SystemCpuActive),
      IntMember(members, SystemDiskTotal),
      IntMember(members, SystemDiskUsed),
      IntMember(members, SystemMemoryTotal),
      IntMember(members, SystemMemoryUsed),
      IntMember(members, SystemNetworkReceived),
      IntMember(members, SystemNetworkSent),
      IntMember(members, MemoryActive),
      IntMember(members, MemoryAllocated),
      Decoded(members, MemoryFragmentationRatio),
      IntMember(members, MemoryMapped),
      IntMember(members, MemoryMetadata),
      IntMember(members, MemoryResident),
      IntMember(members, MemoryRetained))
  }

  lemma {:induction false} BuildDecodes(members: map<string, Quoted>)
    requires forall f :: Accepts(members, f)
    ensures forall f :: Field(Build(members), f) == Decoded(members, f)
  {
    forall f ensures Field(Build(members), f) == Decoded(members, f) {
      match f
      case SystemCpu1Active =>
      case SystemCpu2Active =>
      case SystemCpu3Active =>
      case SystemCpu4Active =>
      case SystemCpuActive =>
      case SystemDiskTotal =>
      case SystemDiskUsed =>
      case SystemMemoryTotal =>
      case SystemMemoryUsed =>
      case SystemNetworkReceived =>
      case SystemNetworkSent =>
      case MemoryActive =>
      case MemoryAllocated =>
      case MemoryFragmentationRatio =>
      case MemoryMapped =>
      case MemoryMetadata =>
      case MemoryResident =>
      case MemoryRetained =>
    }
  }

  /** `json.Unmarshal` into `clusterMetricsResponse`: one field whose text
      does not parse fails the whole decode; otherwise every field gets its
      member's value, or zero when the member is absent. Members for other
      keys are ignored. */
  function Decode(members: map<string, Quoted>): (r: Option<ClusterMetricsResponse>)
    ensures r.Some? <==> forall f :: Accepts(members, f)
    ensures r.Some? ==> forall f :: Accepts(members, f) && Field(r.value, f) == Decoded(members, f)
  {
    if forall f :: Accepts(members, f) then
      BuildDecodes(members);
      Some(Build(members))
    else
      None
  }

  // ---------------------------------------------------------------------
  // The `metrics` table of `NewClusterMetrics`

  /** One row of the table: the metric name (inside the subsystem) and the
      field whose value it exposes unchanged. */
  datatype ClusterMetric = ClusterMetric(name: string, field: ClusterField)

  /** The seven gauges, in table order. */
  const Metrics: seq<ClusterMetric> := [
    ClusterMetric("memory_active_bytes", MemoryActive),
    ClusterMetric("memory_allocated_bytes", MemoryAllocated),
    ClusterMetric("memory_fragmentation_ratio", MemoryFragmentationRatio),
    ClusterMetric("memory_mapped_bytes", MemoryMapped),
    ClusterMetric("memory_metadata_bytes", MemoryMetadata),
    ClusterMetric("memory_resident_bytes", MemoryResident),
    ClusterMetric("memory_retained_bytes", MemoryRetained)
  ]

  /** The naming rule of the table: a metric is named after its field's key
      with the `typesense_` prefix removed. */
  predicate FollowsNamingRule(m: ClusterMetric) {
    Key(m.field) == TypesensePrefix + m.name
  }

  /** Where a Typesense field sits in the table. */
  function FieldIndex(f: ClusterField): (n: nat)
    requires IsTypesenseField(f)
    ensures n < 7
  {
    match f
    case MemoryActive => 0
    case MemoryAllocated => 1
    case MemoryFragmentationRatio => 2
    case MemoryMapped => 3
    case MemoryMetadata => 4
    case MemoryResident => 5
    case MemoryRetained => 6
  }

  /** The row for Typesense field `f` sits at `FieldIndex(f)` and is named
      by the naming rule. */
  lemma TypesenseRow(f: ClusterField)
    requires IsTypesenseField(f)
    ensures Metrics[FieldIndex(f)].field == f && FollowsNamingRule(Metrics[FieldIndex(f)])
  {
    match f
    case MemoryActive =>
    case MemoryAllocated =>
    case MemoryFragmentationRatio =>
    case MemoryMapped =>
    case MemoryMetadata =>
    case MemoryResident =>
    case MemoryRetained =>
  }

  /** Row `i` of the table follows the naming rule and holds the field
      whose table index is `i`. */
  lemma MetricRow(i: nat)
    requires i < |Metrics|
    ensures IsTypesenseField(Metrics[i].field) && FieldIndex(Metrics[i].field) == i
    ensures FollowsNamingRule(Metrics[i])
  {
    TypesenseRow(Metrics[i].field);
  }

  /** The table is a bijection between its seven rows and the seven
      Typesense fields, and every row is named by the naming rule. The
      host fields (CPU, disk, network, system memory) have no row. */
  lemma MetricsFollowSchema()
    ensures |Metrics| == 7
    ensures forall i :: 0 <= i < |Metrics| ==>
              IsTypesenseField(Metrics[i].field) && FieldIndex(Metrics[i].field) == i && FollowsNamingRule(Metrics[i])
    ensures forall f :: IsTypesenseField(f) ==> Metrics[FieldIndex(f)].field == f
    ensures forall i :: 0 <= i < |Metrics| ==> Metrics[i].name == Key(Metrics[i].field)[|TypesensePrefix|..]
  {
    forall i | 0 <= i < |Metrics|
      ensures IsTypesenseField(Metrics[i].field) && FieldIndex(Metrics[i].field) == i && FollowsNamingRule(Metrics[i])
      ensures Metrics[i].name == Key(Metrics[i].field)[|TypesensePrefix|..]
    {
      MetricRow(i);
      assert (TypesensePrefix + Metrics[i].name)[|TypesensePrefix|..] == Metrics[i].name;
    }
    forall f | IsTypesenseField(f) ensures Metrics[FieldIndex(f)].field == f {
      TypesenseRow(f);
    }
  }

  /** The field samples of a successful scrape: one gauge per row, labelled
      with the base URL, named after its field by the naming rule and
      valued with the field unchanged. */
  function FieldSamples(url: string, resp: ClusterMetricsResponse): (r: seq<Sample>)
    ensures |r| == 7
    ensures forall i :: 0 <= i < |r| ==>
              && r[i].labels == [url]
              && r[i].name == FQName(Subsystem, Key(Metrics[i].field)[|TypesensePrefix|..])
              && r[i].value == Field(resp, Metrics[i].field)
    ensures forall f :: IsTypesenseField(f) ==> r[FieldIndex(f)].value == Field(resp, f)
  {
    MetricsFollowSchema();
    seq(|Metrics|, i requires 0 <= i < |Metrics| => Sample(FQName(Subsystem, Metrics[i].name), [url], Field(resp, Metrics[i].field)))
  }

  /** The host fields are decoded but never sent: two responses that agree
      on the seven Typesense fields give the same field samples. */
  lemma {:induction false} HostFieldsNotEmitted(url: string, a: ClusterMetricsResponse, b: ClusterMetricsResponse)
    requires forall f :: IsTypesenseField(f) ==> Field(a, f) == Field(b, f)
    ensures FieldSamples(url, a) == FieldSamples(url, b)
  {
    var x, y := FieldSamples(url, a), FieldSamples(url, b);
    forall i | 0 <= i < 7 ensures x[i] == y[i] {
      MetricRow(i);
    }
  }

  // ---------------------------------------------------------------------
  // One scrape

  /** The JSON document read from `/metrics.json`: something `json.Unmarshal`
      rejects, or the members of an object. A top-level `null`, which
      `json.Unmarshal` accepts and leaves the struct at zero, is given as
      `Object(map[])`. */
  datatype ClusterDoc = Malformed | Object(members: map<string, Quoted>)

  /** The fetch got a 200 and its body was read and decoded. */
  predicate Healthy(f: Fetch<ClusterDoc>) {
    f.Reply? && f.status == StatusOK && f.body.Read? && f.body.doc.Object? && Decode(f.body.doc.members).Some?
  }

  /** The fetch got a 200 but its body could not be read or decoded. */
  predicate ParseFailed(f: Fetch<ClusterDoc>) {
    && f.Reply? && f.status == StatusOK
    && (f.body.ReadFailed? || f.body.doc.Malformed? || Decode(f.body.doc.members).None?)
  }

  /** `fetchAndDecodeClusterMetrics`: the transport checks, then the decode. */
  function FetchAndDecode(f: Fetch<ClusterDoc>): (r: Result<ClusterMetricsResponse, FetchError>)
    ensures r.Success? <==> Healthy(f)
    ensures r.Success? ==> Some(r.value) == Decode(f.body.doc.members)
    ensures r.Failure? ==> (IsParseFailure(r.error) <==> ParseFailed(f))
  {
    match Receive(f)
    case Failure(e) => Failure(e)
    case Success(doc) =>
      match doc
      case Malformed => Failure(Unmarshal)
      case Object(members) =>
        match Decode(members)
        case None => Failure(Unmarshal)
        case Some(resp) => Success(resp)
  }

  /** `ClusterMetrics.Collect`: count the scrape, fetch and decode, set up,
      emit the seven gauges on success, and always end with the three
      health samples. */
  function Collect(c: Counters, url: string, f: Fetch<ClusterDoc>): (r: ScrapeResult)
    ensures r.counters.totalScrapes == c.totalScrapes + 1
    ensures r.counters.jsonParseFailures == c.jsonParseFailures + (if ParseFailed(f) then 1 else 0)
    ensures r.counters.up == (if Healthy(f) then 1.0 else 0.0)
    ensures Valid(c) ==> Valid(r.counters)
    ensures !Healthy(f) ==> r.samples == Health(Subsystem, r.counters)
    ensures Healthy(f) ==>
              r.samples == FieldSamples(url, Decode(f.body.doc.members).value) + Health(Subsystem, r.counters)
  {
    match FetchAndDecode(f)
    case Failure(e) => Finish(Subsystem, c, Failure(e))
    case Success(resp) => Finish(Subsystem, c, Success(FieldSamples(url, resp)))
  }

  /** An object with no member (and so a top-level `null`) is no parse
      failure: up is 1 and the seven gauges are sent, each 0. */
  lemma EmptyDocumentSendsZeros(c: Counters, url: string)
    ensures var r := Collect(c, url, Reply(StatusOK, Read(Object(map[]))));
            && r.counters.up == 1.0
            && r.counters.jsonParseFailures == c.jsonParseFailures
            && |r.samples| == 10
            && forall i :: 0 <= i < 7 ==> r.samples[i].value == 0.0
  {
  }

  /** One member whose text does not parse as its field's type fails the
      whole decode: one parse failure, up drops to 0 and no gauge is sent,
      however well the other members parse. */
  lemma BadFieldFailsWholeDecode(c: Counters, url: string, members: map<string, Quoted>, bad: ClusterField)
    requires Key(bad) in members && !Accepts(members, bad)
    ensures var r := Collect(c, url, Reply(StatusOK, Read(Object(members))));
            && r.counters.up == 0.0
            && r.counters.jsonParseFailures == c.jsonParseFailures + 1
            && r.samples == Health(Subsystem, r.counters)
  {
    assert Decode(members).None?;
  }

  /** The gauges a scrape sends do not depend on the host fields of the
      decoded document. */
  lemma {:induction false} CollectIgnoresHostFields(c: Counters, url: string, f: Fetch<ClusterDoc>, g: Fetch<ClusterDoc>)
    requires Healthy(f) && Healthy(g)
    requires forall k :: IsTypesenseField(k) ==>
               Field(Decode(f.body.doc.members).value, k) == Field(Decode(g.body.doc.members).value, k)
    ensures Collect(c, url, f) == Collect(c, url, g)
  {
    HostFieldsNotEmitted(url, Decode(f.body.doc.members).value, Decode(g.body.doc.members).value);
  }

  // ---------------------------------------------------------------------
  // Describe

  /** `ClusterMetrics.Describe`: the seven table descriptors (label
      "cluster"), then the three health descriptors. */
  function Describe(): (r: seq<Desc>)
    ensures |r| == 10
    ensures forall i :: 0 <= i < 7 ==> r[i] == Desc(FQName(Subsystem, Metrics[i].name), [ClusterLabel])
    ensures r[7..] == HealthDescs(Subsystem)
  {
    seq(|Metrics|, i requires 0 <= i < |Metrics| => Desc(FQName(Subsystem, Metrics[i].name), [ClusterLabel]))
      + HealthDescs(Subsystem)
  }

  /** Every sample any scrape sends was announced by `Describe`, with the
      right number of labels. */
  lemma {:induction false} CollectIsDescribed(c: Counters, url: string, f: Fetch<ClusterDoc>)
    ensures forall s :: s in Collect(c, url, f).samples ==> DescribedBy(s, Describe())
  {
    var r := Collect(c, url, f);
    var d := Describe();
    var h := Health(Subsystem, r.counters);
    forall i | 0 <= i < 3 ensures DescribedBy(h[i], d) {
      assert d[7 + i] == d[7..][i];
    }
    if Healthy(f) {
      var fields := FieldSamples(url, Decode(f.body.doc.members).value);
      MetricsFollowSchema();
      forall i | 0 <= i < 7 ensures DescribedBy(fields[i], d) {
        assert d[i].name == fields[i].name;
      }
    }
  }
}

=== FILE: exposition.dfy ===
/** The exposition vocabulary shared by every collector: fully qualified
    metric names, samples (name, label values, value), descriptors (name,
    label names) and the order in which Go ranges over a map. */
module Exposition {

  /** The common namespace of every metric name (collector/collector.go). */
  const Namespace: string := "typesense"

  /** prometheus.BuildFQName for a non-empty namespace, subsystem and name. */
  function FQName(subsystem: string, name: string): string {
    Namespace + "_" + subsystem + "_" + name
  }

  /** Distinct names within one subsystem stay distinct once qualified. */
  lemma FQNameInjective(subsystem: string, a: string, b: string)
    ensures FQName(subsystem, a) == FQName(subsystem, b) ==> a == b
  {
    var prefix := Namespace + "_" + subsystem + "_";
    assert FQName(subsystem, a) == prefix + a && FQName(subsystem, b) == prefix + b;
    assert (prefix + a)[|prefix|..] == a && (prefix + b)[|prefix|..] == b;
  }

  /** One exposed sample: a metric name, its label values in the order of the
      descriptor's label names, and its value (float64 modelled as real). */
  datatype Sample = Sample(name: string, labels: seq<string>, value: real)

  /** A metric descriptor: its name and the names of its variable labels. */
  datatype Desc = Desc(name: string, labels: seq<string>)

  /** A sample is announced by a descriptor list when some descriptor has its
      name and as many label names as the sample has label values. */
  predicate DescribedBy(s: Sample, descs: seq<Desc>) {
    exists i :: 0 <= i < |descs| && descs[i].name == s.name && |descs[i].labels| == |s.labels|
  }

  predicate Distinct<T(==)>(s: seq<T>) {
    forall i, j :: 0 <= i < j < |s| ==> s[i] != s[j]
  }

  /** `order` is one order in which a Go `range` over a map with key set
      `keys` can visit them: every key exactly once. */
  predicate IsEnumeration<K(==)>(order: seq<K>, keys: set<K>) {
    && |order| == |keys|
    && Distinct(order)
    && (forall i :: 0 <= i < |order| ==> order[i] in keys)
    && (forall k :: k in keys ==> k in order)
  }

  lemma {:induction false} DistinctOccursOnce<T>(s: seq<T>, x: T)
    requires Distinct(s)
    ensures multiset(s)[x] == if x in s then 1 else 0
  {
    if |s| > 0 {
      assert s == [s[0]] + s[1..];
      assert Distinct(s[1..]) by {
        forall i, j | 0 <= i < j < |s[1..]| ensures s[1..][i] != s[1..][j] {
          assert s[1..][i] == s[i + 1] && s[1..][j] == s[j + 1];
        }
      }
      DistinctOccursOnce(s[1..], x);
      if x == s[0] {
        assert x !in s[1..] by {
          forall i | 0 <= i < |s[1..]| ensures s[1..][i] != x {
            assert s[1..][i] == s[i + 1];
          }
        }
      }
    }
  }

  /** Two enumerations of the same key set differ only in order. */
  lemma {:induction false} EnumerationsArePermutations<K>(a: seq<K>, b: seq<K>, keys: set<K>)
    requires IsEnumeration(a, keys) && IsEnumeration(b, keys)
    ensures multiset(a) == multiset(b)
  {
    forall x ensures multiset(a)[x] == multiset(b)[x] {
      DistinctOccursOnce(a, x);
      DistinctOccursOnce(b, x);
    }
  }

  /** Applies `f` to every element, keeping the order: how a `for … range`
      loop that appends one sample per visited element builds its slice. */
  function MapSeq<A, B>(f: A --> B, s: seq<A>): (r: seq<B>)
    requires forall x :: x in s ==> f.requires(x)
    ensures |r| == |s|
    ensures forall i :: 0 <= i < |s| ==> r[i] == f(s[i])
  {
    if |s| == 0 then [] else [f(s[0])] + MapSeq(f, s[1..])
  }

  lemma {:induction false} MapSeqAppend<A, B>(f: A --> B, a: seq<A>, b: seq<A>)
    requires forall x :: x in a + b ==> f.requires(x)
    ensures MapSeq(f, a + b) == MapSeq(f, a) + MapSeq(f, b)
  {
  }

  lemma {:induction false} MapSeqAround<A, B>(f: A --> B, pre: seq<A>, x: A, post: seq<A>)
    requires forall y :: y in pre + [x] + post ==> f.requires(y)
    ensures MapSeq(f, pre + [x] + post) == MapSeq(f, pre) + [f(x)] + MapSeq(f, post)
  {
    assert pre + [x] + post == pre + ([x] + post);
    MapSeqAppend(f, pre, [x] + post);
    MapSeqAppend(f, [x], post);
  }

  /** Taking one element out of the input takes its image out of the
      multiset of outputs. */
  lemma {:induction false} MapSeqRemove<A, B>(f: A --> B, s: seq<A>, j: nat)
    requires forall x :: x in s ==> f.requires(x)
    requires j < |s|
    ensures multiset(MapSeq(f, s)) == multiset{f(s[j])} + multiset(MapSeq(f, s[..j] + s[j + 1..]))
  {
    var pre, x, post := s[..j], s[j], s[j + 1..];
    assert s == pre + [x] + post;
    MapSeqAround(f, pre, x, post);
    MapSeqAppend(f, pre, post);
  }

  /** Two sequences with the same multiset: the first element of one sits
      at some position `j` of the other, and what remains on both sides
      still has the same multiset. */
  lemma {:induction false} MatchFirst<T>(a: seq<T>, b: seq<T>) returns (j: nat)
    requires |a| > 0 && multiset(a) == multiset(b)
    ensures j < |b| && b[j] == a[0]
    ensures multiset(a[1..]) == multiset(b[..j] + b[j + 1..])
  {
    assert a[0] in multiset(b);
    j :| 0 <= j < |b| && b[j] == a[0];
    assert a == [a[0]] + a[1..];
    assert b == b[..j] + [b[j]] + b[j + 1..];
    assert multiset(a[1..]) == multiset(a) - multiset{a[0]};
    assert multiset(b[..j] + b[j + 1..]) == multiset(b) - multiset{b[j]};
  }

  /** The multiset of outputs depends only on the multiset of inputs. */
  lemma {:induction false} MapSeqPermutation<A, B>(f: A --> B, a: seq<A>, b: seq<A>)
    requires forall x :: x in a ==> f.requires(x)
    requires multiset(a) == multiset(b)
    ensures forall x :: x in b ==> f.requires(x)
    ensures multiset(MapSeq(f, a)) == multiset(MapSeq(f, b))
    decreases |a|
  {
    assert forall x :: x in b ==> x in multiset(a);
    if |a| > 0 {
      var j := MatchFirst(a, b);
      MapSeqRemove(f, b, j);
      MapSeqPermutation(f, a[1..], b[..j] + b[j + 1..]);
    }
  }

  /** Mapping over an enumeration of a key set gives one output per key:
      as many outputs as keys, every key's image among them, and nothing
      else; and any two enumerations give the same multiset. */
  lemma {:induction false} MapSeqOverEnumeration<A, B>(f: A --> B, order: seq<A>, other: seq<A>, keys: set<A>)
    requires forall x :: x in keys ==> f.requires(x)
    requires IsEnumeration(order, keys) && IsEnumeration(other, keys)
    ensures |MapSeq(f, order)| == |keys|
    ensures forall k :: k in keys ==> f(k) in MapSeq(f, order)
    ensures forall y :: y in MapSeq(f, order) ==> exists k :: k in keys && y == f(k)
    ensures multiset(MapSeq(f, order)) == multiset(MapSeq(f, other))
  {
    var r := MapSeq(f, order);
    forall k | k in keys ensures f(k) in r {
      var i :| 0 <= i < |order| && order[i] == k;
      assert r[i] == f(k);
    }
    forall y | y in r ensures exists k :: k in keys && y == f(k) {
      var i :| 0 <= i < |r| && r[i] == y;
      assert order[i] in keys;
    }
    EnumerationsArePermutations(order, other, keys);
    MapSeqPermutation(f, order, other);
  }

  /** The three parts of a concatenation are its slices at the part
      boundaries. */
  lemma ConcatSlices<T>(a: seq<T>, b: seq<T>, c: seq<T>)
    ensures var s := a + b + c;
            && |s| == |a| + |b| + |c|
            && s[..|a|] == a
            && s[|a|..|a| + |b|] == b
            && s[|a| + |b|..] == c
  {
  }
}

=== FILE: go_strings.dfy ===
/** Go's `strings.Split` for a one-character separator, and its inverse
    `strings.Join`. */
module GoStrings {

  /** Position of the first occurrence of `c` in `s`. */
  function IndexOf(s: string, c: char): (i: nat)
    requires c in s
    ensures i < |s| && s[i] == c
    ensures c !in s[..i]
  {
    if s[0] == c then 0
    else
      assert c in s[1..] by { assert s == [s[0]] + s[1..]; }
      var j := IndexOf(s[1..], c);
      assert s[..j + 1] == [s[0]] + s[1..][..j];
      1 + j
  }

  /** The first occurrence is the only position holding `c` with no `c`
      before it. */
  lemma IndexOfUnique(s: string, c: char, n: nat)
    requires n < |s| && s[n] == c && c !in s[..n]
    ensures IndexOf(s, c) == n
  {
  }

  /** strings.Join(parts, string(sep)). */
  function Join(parts: seq<string>, sep: char): string
  {
    if |parts| == 0 then ""
    else if |parts| == 1 then parts[0]
    else parts[0] + [sep] + Join(parts[1..], sep)
  }

  /** strings.Split(s, string(sep)): the maximal separator-free pieces of `s`,
      in order; never empty, and an input without `sep` is a single piece. */
  function Split(s: string, sep: char): (parts: seq<string>)
    ensures |parts| >= 1
    ensures forall i :: 0 <= i < |parts| ==> sep !in parts[i]
    ensures Join(parts, sep) == s
    decreases |s|
  {
    if sep !in s then [s]
    else
      var i := IndexOf(s, sep);
      var rest := Split(s[i + 1..], sep);
      assert ([s[..i]] + rest)[1..] == rest;
      assert s == s[..i] + [sep] + s[i + 1..];
      [s[..i]] + rest
  }

  /** Splitting what Join produced gives the pieces back, provided no piece
      contains the separator. */
  lemma {:induction false} SplitJoin(parts: seq<string>, sep: char)
    requires |parts| >= 1
    requires forall i :: 0 <= i < |parts| ==> sep !in parts[i]
    ensures Split(Join(parts, sep), sep) == parts
  {
    if |parts| > 1 {
      var s := Join(parts, sep);
      var rest := parts[1..];
      assert s == parts[0] + [sep] + Join(rest, sep);
      var n := |parts[0]|;
      assert s[n] == sep && s[..n] == parts[0];
      assert sep in s;
      IndexOfUnique(s, sep, n);
      assert s[n + 1..] == Join(rest, sep);
      SplitJoin(rest, sep);
    }
  }
}

=== FILE: scrape.dfy ===
/** The per-scrape skeleton both stat collectors share: the outcome of one
    HTTP fetch, its classification into the error kinds of
    `fetchAndDecode…`, the long-lived counters (up, total_scrapes,
    json_parse_failures) and the three health samples every scrape ends with.
    The network, `ioutil.ReadAll` and the JSON decoder are abstracted into
    the fetch outcome. */
module Scrape {
  import opened Wrappers
  import opened Exposition

  /** net/http's StatusOK: the only status accepted. */
  const StatusOK: int := 200

  /** The one variable label of both collectors' field metrics; its value
      is the base URL of the Typesense node. */
  const ClusterLabel: string := "cluster"

  /** What reading the response body produced: an I/O error, or a JSON
      document of the collector's own shape `J`. */
  datatype Body<J> = ReadFailed | Read(doc: J)

  /** What `client.Get` produced: no response at all, or a status and body. */
  datatype Fetch<J> = TransportFailed | Reply(status: int, body: Body<J>)

  /** The error kinds `fetchAndDecode…` can return. */
  datatype FetchError =
    | Transport            // the request could not be sent
    | Status(code: int)    // a status other than 200
    | ReadBody             // the body could not be read
    | Unmarshal            // the body is not a valid document

  /** Only body and document failures count as JSON parse failures. */
  predicate IsParseFailure(e: FetchError) {
    e.ReadBody? || e.Unmarshal?
  }

  /** The transport half of `fetchAndDecode…`: everything up to (not
      including) decoding the document. */
  function Receive<J>(f: Fetch<J>): (r: Result<J, FetchError>)
    ensures r.Success? <==> f.Reply? && f.status == StatusOK && f.body.Read?
    ensures r.Success? ==> r.value == f.body.doc
    ensures f.TransportFailed? ==> r == Failure(Transport)
    ensures f.Reply? && f.status != StatusOK ==> r == Failure(Status(f.status))
    ensures r.Failure? && IsParseFailure(r.error) <==> f.Reply? && f.status == StatusOK && f.body.ReadFailed?
  {
    match f
    case TransportFailed => Failure(Transport)
    case Reply(status, body) =>
      if status != StatusOK then Failure(Status(status))
      else
        match body
        case ReadFailed => Failure(ReadBody)
        case Read(doc) => Success(doc)
  }

  /** The collector's own health state: the up gauge (set to 0 or 1 on every
      scrape) and the two counters that only ever grow. */
  datatype Counters = Counters(up: real, totalScrapes: nat, jsonParseFailures: nat)

  /** A freshly registered collector: gauge and counters start at zero. */
  const Initial: Counters := Counters(0.0, 0, 0)

  /** up is a 0/1 flag and no scrape is counted as a parse failure twice. */
  predicate Valid(c: Counters) {
    && (c.up == 0.0 || c.up == 1.0)
    && c.jsonParseFailures <= c.totalScrapes
  }

  /** The counters after one scrape whose fetch-and-decode ended with `err`
      (None when it succeeded). The scrape counter is bumped before the
      fetch, whatever happens next. */
  function Next(c: Counters, err: Option<FetchError>): (c': Counters)
    ensures c'.totalScrapes == c.totalScrapes + 1
    ensures c'.jsonParseFailures - c.jsonParseFailures ==
              (if err.Some? && IsParseFailure(err.value) then 1 else 0)
    ensures c'.up == if err.None? then 1.0 else 0.0
    ensures Valid(c) ==> Valid(c')
  {
    var begun := c.(totalScrapes := c.totalScrapes + 1);
    match err
    case None => begun.(up := 1.0)
    case Some(e) =>
      var failures := if IsParseFailure(e) then begun.jsonParseFailures + 1 else begun.jsonParseFailures;
      begun.(up := 0.0, jsonParseFailures := failures)
  }

  /** The counters after a sequence of scrapes, oldest first. */
  function Run(c: Counters, errs: seq<Option<FetchError>>): Counters
    decreases |errs|
  {
    if |errs| == 0 then c else Run(Next(c, errs[0]), errs[1..])
  }

  /** How many of the outcomes are parse failures. */
  function ParseFailures(errs: seq<Option<FetchError>>): nat
  {
    if |errs| == 0 then 0
    else (if errs[0].Some? && IsParseFailure(errs[0].value) then 1 else 0) + ParseFailures(errs[1..])
  }

  /** After N scrapes total_scrapes has grown by exactly N and
      json_parse_failures by the number of parse failures among them, so a
      valid state stays valid. */
  lemma {:induction false} RunCounts(c: Counters, errs: seq<Option<FetchError>>)
    ensures Run(c, errs).totalScrapes == c.totalScrapes + |errs|
    ensures Run(c, errs).jsonParseFailures == c.jsonParseFailures + ParseFailures(errs)
    ensures Valid(c) ==> Valid(Run(c, errs))
    decreases |errs|
  {
    if |errs| > 0 {
      RunCounts(Next(c, errs[0]), errs[1..]);
    }
  }

  /** From a fresh collector, N scrapes leave total_scrapes == N and never
      more parse failures than scrapes. */
  lemma FromInitial(errs: seq<Option<FetchError>>)
    ensures Run(Initial, errs).totalScrapes == |errs|
    ensures Run(Initial, errs).jsonParseFailures == ParseFailures(errs) <= |errs|
  {
    RunCounts(Initial, errs);
  }

  /** The three health samples, in the order the deferred function of
      `Collect` sends them: up, total_scrapes, json_parse_failures. */
  function Health(subsystem: string, c: Counters): (r: seq<Sample>)
    ensures |r| == 3
    ensures forall i :: 0 <= i < 3 ==> r[i].labels == []
    ensures r[0].name == FQName(subsystem, "up") && r[0].value == c.up
    ensures r[1].name == FQName(subsystem, "total_scrapes") && r[1].value == c.totalScrapes as real
    ensures r[2].name == FQName(subsystem, "json_parse_failures") && r[2].value == c.jsonParseFailures as real
  {
    [ Sample(FQName(subsystem, "up"), [], c.up),
      Sample(FQName(subsystem, "total_scrapes"), [], c.totalScrapes as real),
      Sample(FQName(subsystem, "json_parse_failures"), [], c.jsonParseFailures as real) ]
  }

  /** The descriptors of the three health metrics (no variable labels). */
  function HealthDescs(subsystem: string): seq<Desc> {
    [ Desc(FQName(subsystem, "up"), []),
      Desc(FQName(subsystem, "total_scrapes"), []),
      Desc(FQName(subsystem, "json_parse_failures"), []) ]
  }

  /** What one scrape leaves behind: the new counters and the samples sent. */
  datatype ScrapeResult = ScrapeResult(counters: Counters, samples: seq<Sample>)

  /** Ending a scrape: on failure only the health samples are sent; on
      success the field samples come first and the health samples last. */
  function Finish(subsystem: string, c: Counters, outcome: Result<seq<Sample>, FetchError>): (r: ScrapeResult)
    ensures r.counters == Next(c, if outcome.Success? then None else Some(outcome.error))
    ensures outcome.Failure? ==> r.samples == Health(subsystem, r.counters)
    ensures outcome.Success? ==> r.samples == outcome.value + Health(subsystem, r.counters)
  {
    match outcome
    case Failure(e) =>
      var c' := Next(c, Some(e));
      ScrapeResult(c', Health(subsystem, c'))
    case Success(fields) =>
      var c' := Next(c, None);
      ScrapeResult(c', fields + Health(subsystem, c'))
  }
}

=== FILE: wrappers.dfy ===
/** Failure-carrying values shared by the model: an optional value and a
    success-or-error result, as Go's `(value, error)` pairs are modelled. */
module Wrappers {

  datatype Option<+T> = None | Some(value: T)

  datatype Result<+R, +E> = Success(value: R) | Failure(error: E)
}
